=== FILE: README.md ===
# skill-icons: a verified model of the badge worker and the changelog extractor

skill-icons is a Cloudflare Worker. A request such as `/icons?i=js,html,css&theme=light&perline=3` gets back one SVG image that draws the named technology icons in a grid. This project models two parts of it in Dafny and proves properties of those models:

- **The request core of `index.js`:**
  - the catalog views `iconNameList` and `themedIcons`;
  - the `shortNames` alias table and the limits;
  - the query parsers `normalizeIconParam`, `parseTheme` and `parsePerLine`;
  - the token resolver `resolveIcons`, an imperative loop that pushes onto two lists;
  - the grid geometry of `generateSvg`;
  - the routing, validation order, status codes, conditional-GET and API-key logic of `handleRequest`.
- **The release-notes extractor of `scripts/extract-changelog.js`:**
  - `normalizeVersion`;
  - `extractSection`, which splits the changelog into lines and runs two index loops to find the section of one version.

## Modules

| File | Module | What it holds |
|---|---|---|
| `wrappers.dfy` | `Wrappers` | `Option`, which stands for JavaScript's `null` or `undefined` |
| `strings.dfy` | `Strings` | The string built-ins the code relies on: `trim` (the exact ECMAScript whitespace set), `toLowerCase`, `split`, `join`, `includes`, and the UTF-16 `length` |
| `catalog.dfy` | `Catalog` | The packaged catalog: its keys in `Object.keys` order, plus the key-to-SVG map. Also `iconNameList`, `themedIcons` and `shortNames` |
| `params.dfy` | `Params` | The three query parsers, and `Number.parseInt` as `perline` uses it |
| `resolver.dfy` | `Resolver` | `resolveIcons` as a loop (`ResolveIcons`) proved equal to a list function (`Resolve`) |
| `grid.dfy` | `Grid` | `generateSvg` as a structured document: view box, scaled size, and one tile per icon |
| `worker.dfy` | `Worker` | `handleRequest`: the routes, the ordered `/icons` checks, refusals and statuses, the `ETag` branch, and the `/api/svgs` key gate |
| `changelog.dfy` | `Changelog` | `normalizeVersion`, the `\r?\n` line split, the heading regular expressions, and `extractSection` as a method with two loops |

### Modelling choices

- **External inputs become parameters:**
  - The SHA-256 `ETag` becomes `etag: Body -> string`, where `Body` names what was hashed.
  - The `SVGS_API_KEY` global becomes `Config`.
  - The module-level tables `resolveIcons` reads become the `Tables` record.
- **Request shape:**
  - A query is a map from a parameter name to its first value, as `URLSearchParams.get` gives.
  - A header set is a map from a header name to what `Headers.get` returns: the values of a repeated header already joined with `, `. So `x-api-key: secret` sent twice is the single value `secret, secret`.
  - Header names are lower case.
- **Divergences from the documented intent, where the model follows the code:**
  - **The root page** is sent without an `ETag` (index.js:226-229). It is not conditional.
  - **Carriage returns.** `split(/\r?\n/)` removes a `\r` only when it directly precedes a `\n`. A text with `\r\r\n` therefore keeps one `\r\n` in the extracted section, and other `\r` characters stay where they are. `JoinSplitLines` and `DoubleCarriageReturnKeepsOne` state exactly what the split changes.
  - **A heading with line terminators.** A heading line whose text contains a lone `\r`, U+2028 or U+2029 does not match the heading expression, because `.` does not match line terminators. Such a line is never a section start, although it still ends a section.

## Model

| member | source | states |
|---|---|---|
| Strings.Trim | index.js:94 | `trim` gives a trimmed string, empty exactly when the input is all whitespace, that occurs inside the input |
| Strings.TrimIdempotent | index.js:94 | Trimming twice is trimming once |
| Strings.TrimOfPadded | scripts/extract-changelog.js:11 | `trim` removes exactly the blank padding around a trimmed, non-empty string |
| Strings.Lower | index.js:94 | `toLowerCase` keeps the length and lower-cases each character |
| Strings.LowerIdempotent | index.js:94 | Lower-casing twice is lower-casing once |
| Strings.LowerKeepsTrim | index.js:94 | Lower-casing keeps a string trimmed, keeps it blank or non-blank, and keeps it empty or non-empty |
| Strings.Split | index.js:93 | `split` on a one-character separator: there is always at least one piece; the three lemmas below fix which pieces |
| Strings.SplitPiecesLackSeparator | index.js:93 | No piece of `split(sep)` contains the separator |
| Strings.JoinSplit | index.js:93 | Joining the pieces of `split(sep)` with `sep` gives back the string |
| Strings.SplitAtSeparator | index.js:93 | Splitting `a + sep + b` gives the pieces of `a`, then the pieces of `b` |
| Strings.SplitWithoutSeparator | index.js:93 | A string without the separator splits into itself alone |
| Strings.Join | index.js:277 | `join`: the elements in order, with the separator between neighbours; JoinSplit and JoinContainsElement state what it gives |
| Strings.Contains | index.js:49 | `includes` holds exactly when the substring occurs at some index |
| Strings.JoinContainsElement | index.js:277 | The joined string contains every joined element |
| Strings.Utf16Length | index.js:250 | The UTF-16 length lies between the number of code points and twice that |
| Catalog.BaseName | index.js:4 | `key.split('-')[0]` is a prefix of the key with no `-` in it, followed in the key by a `-` or by nothing: the part before the first `-` |
| Catalog.BaseNameShape | index.js:4 | `key.split('-')[0]` is the prefix of the key before its first `-`, or the whole key |
| Catalog.Dedup | index.js:4 | `[...new Set(xs)]` has the same elements as `xs`, each once |
| Catalog.DedupKeepsFirstOccurrenceOrder | index.js:4 | `[...new Set(xs)]` lists elements in the order of their first occurrence |
| Catalog.BaseNames | index.js:4 | `iconNameList` lists, without repeats, exactly the base names of the catalog keys |
| Catalog.ThemedBasesOf | index.js:47-51 | `themedIcons` holds exactly the base names of keys containing `-light` or `-dark` |
| Catalog.ThemedBasesAreBaseNames | index.js:4-51 | Every themed base is a base name |
| Params.CleanTokensAreClean | index.js:92-95 | Every piece kept is non-empty, trimmed and lower case, and no piece is added |
| Params.NormalizeIconParam | index.js:90-96 | A missing or empty parameter gives no tokens; every token is non-empty, trimmed and lower case |
| Params.NormalizeIconParamAtComma | index.js:92-95 | The tokens of `a,b` are the tokens of `a` followed by those of `b`: comma order is kept |
| Params.EmptyParamHasNoTokens | index.js:92-95 | The empty string yields no token |
| Params.NormalizeIconParamSingle | index.js:92-95 | A comma-free parameter gives its trimmed lower-case self, or nothing when blank |
| Params.ThemeFromText | index.js:99-104 | After trim and lower-case: `light` selects light; blank or `dark` selects dark; anything else is null |
| Params.ParseTheme | index.js:98-105 | With `t` and `theme` both absent or blank the theme is dark; a non-empty `t` decides; otherwise a non-empty `theme` decides |
| Params.ThemeFromTextNormalizes | index.js:99-101 | Case and surrounding whitespace do not change the theme selected |
| Params.ThemeNameRoundTrip | index.js:103-104 | Each theme's own name selects that theme |
| Params.LeadingDigits | index.js:110 | The longest prefix of digits that `parseInt` reads |
| Params.ParseInt | index.js:110 | `parseInt` fails exactly when no digit follows the optional sign |
| Params.PerLineFromText | index.js:108-113 | A blank value gives 15; any result lies in [1, 50] |
| Params.ParsePerLine | index.js:107-114 | A missing `perline` gives 15; a present one is read by PerLineFromText, so a blank one gives 15 too; any result lies in [1, 50] |
| Params.Decimal | index.js:110 | The decimal numeral of a number is a non-empty digit string |
| Params.DecimalValue | index.js:110 | The numeral reads back as the number |
| Params.LeadingDigitsOfNumeral | index.js:110 | A numeral followed by a non-digit is read up to the non-digit |
| Params.ParseIntOfNumeral | index.js:110 | `parseInt` of a numeral followed by other text is the numeral's value |
| Params.PerLineOfNumeral | index.js:108-113 | A numeral with a non-digit tail (such as `3x`) gives its value inside [1, 50] and null outside |
| Params.PerLineOfNonNumeral | index.js:110-111 | Non-blank text without a leading digit (such as `x`) gives null |
| Resolver.TablesOf | index.js:4-51 | The tables `resolveIcons` reads, built once from the catalog: `iconNameList`, `themedIcons`, the `shortNames` alias table entry for entry, and `icons` |
| Resolver.ResolveToken | index.js:147-165 | One pass of the loop: trim and lower-case, skip when blank, try the token as a base name before the alias table, add the theme suffix to themed bases, then test the key against the catalog; ResolveTokenOutcome states its outcomes |
| Resolver.ResolveTokenOutcome | index.js:147-165 | A token is skipped exactly when blank; a non-blank token whose base is found and whose key (the base, with `-theme` for a themed base) is in the catalog resolves to that key; any other non-blank token is invalid, kept as written |
| Resolver.Resolve | index.js:142-169 | `resolveIcons` as a list function: each token's outcome appended to the two lists in request order; the lemmas below are proved about it |
| Resolver.CollectSnoc | index.js:146-166 | One more token appends its outcome to the lists |
| Resolver.CollectAppend | index.js:146-166 | The lists of `a + b` are those of `a` followed by those of `b` |
| Resolver.ResolveAppend | index.js:142-169 | `resolveIcons` keeps request order and duplicates in both lists |
| Resolver.CollectMembers | index.js:146-166 | A value is in a list exactly when some token has that outcome |
| Resolver.ResolvedKeysInCatalog | index.js:159-165 | Every resolved key exists in the catalog |
| Resolver.InvalidAreUnresolvedTokens | index.js:154-162 | `invalid` holds exactly the requested tokens, as written, that are non-blank and do not resolve |
| Resolver.ResolutionPartitionsTokens | index.js:146-166 | Each non-blank token lands in exactly one list; blank tokens in neither |
| Resolver.ThemeMattersOnlyForThemedBases | index.js:159 | A base without theme variants resolves the same under both themes |
| Resolver.ThemedBaseResolvesPerTheme | index.js:159-165 | A non-blank token naming a themed base resolves to `base-theme` whenever that key is in the catalog, so the two themes never give the same outcome |
| Resolver.AliasResolvesToTarget | index.js:151-165 | A normalised short name that is not a base name resolves to its alias target when the target is unthemed and in the catalog |
| Resolver.BaseNameShadowsAlias | index.js:151-152 | A token that is a base name is never read as an alias |
| Resolver.ResolveIcons | index.js:142-169 | The loop computes exactly the list specification `Resolve` |
| Grid.CeilDiv | index.js:120 | `Math.ceil(n / d)` is the least row count whose capacity reaches `n` |
| Grid.Fragment | index.js:117-133 | `icons[i]`: the stored SVG fragment of a name, or the text `undefined` that a missing entry interpolates as |
| Grid.GenerateSvg | index.js:116-140 | One tile per name, in order, holding that name's fragment at `((i mod P)·300, ⌊i/P⌋·300)`; width `min(P,n)·300−44`; height `⌈n/P⌉·300−44`; scaled size is each times 48/256 |
| Grid.RowsAreTheLeastThatFit | index.js:120 | `(rows−1)·P < n ≤ rows·P` |
| Grid.TileInsideViewBox | index.js:119-120 | Every 256-unit icon lies inside the view box |
| Grid.TilesDoNotOverlap | index.js:130-131 | Distinct tiles get distinct offsets |
| Grid.SingleRow | index.js:119-120 | At most `P` icons make one row: height 256, width `n·300−44` |
| Worker.Failure.Status | index.js:247-281 | Every refusal status is 400, 401, 404 or 413 |
| Worker.Failure.Message | index.js:248-427 | The plain-text body of each refusal, word for word: lines 248, 251, 255, 261, 270, 277, 281, 377, 382 and 427 |
| Worker.RefusalStatuses | index.js:247-281 | Each refusal gets its status: 413 for the two size limits, 404 and 401 on `/api/svgs`, 400 otherwise |
| Worker.StripSlashes | index.js:190 | The route path: the pathname with one leading and one trailing `/` removed |
| Worker.StripSlashesOfSegment | index.js:190 | A path written with or without its leading and trailing slash names the same route |
| Worker.Conditional | index.js:283-317 | 304 with no body exactly when `if-none-match` equals the body's tag; otherwise 200 with the body; both carry the `ETag` and the long cache header |
| Worker.IconParam | index.js:246 | The icon list is `i` when present and non-empty, otherwise `icons` |
| Worker.RequestedTokens | index.js:265-267 | `all`, after trim and lower-case, stands for every base name; any other value is the normalised comma list |
| Worker.PlanIcons | index.js:246-281 | The `/icons` refusals are never 404 or 401; a drawing has 1 to 200 keys and a row width in [1, 50] |
| Worker.NonBlankCountBound | index.js:146-148 | No more tokens are kept than were requested |
| Worker.IconsRoute | index.js:245-332 | `/icons` answers 200, 304, 400 or 413; a 304 has no body and has a tag |
| Worker.Answer | index.js:283-332 | A refused plan gets its refusal's status and text with no tag; a drawn plan gets the image of its keys at its row width under that image's `ETag`: 304 exactly when `if-none-match` equals the tag, otherwise 200 with the image as SVG |
| Worker.IconsRouteResponse | index.js:245-332 | `/icons` answers the first failing check's refusal, or else the `ETag` branch over `generateSvg(resolved, perLine)` |
| Worker.SvgsRoute | index.js:375-425 | `/api/svgs` answers 200, 304, 401 or 404; a 304 has no body and has a tag |
| Worker.HandleRequest | index.js:185-429 | Every response status is 200, 204, 304, 400, 401, 404 or 413; a 304 has no body and has a tag |
| Worker.IconsChecksInOrder | index.js:246-272 | The first failing check decides: no icons, too long, bad theme, bad `perline`, too many tokens (`all` included) |
| Worker.DrawIffValid | index.js:246-283 | An image is drawn exactly when every check passes |
| Worker.IconsRouteSucceedsIffValid | index.js:246-332 | `/icons` answers 200 or 304 exactly when every check passes |
| Worker.PlanResolution | index.js:274-283 | Only the unknown-token or the nothing-to-draw refusal can follow resolution; a drawing keeps at most the requested number of keys, at least one, and the parsed row width |
| Worker.ResolutionChecks | index.js:274-283 | After the earlier checks: unknown tokens are refused first, then an empty result; otherwise the resolved keys are drawn |
| Worker.UnknownMessage | index.js:277 | The 400 text: the unknown tokens joined with `, ` between the fixed prefix and suffix |
| Worker.UnknownMessageNamesEveryToken | index.js:277 | The unknown-icons message contains every unknown token |
| Worker.UnknownTokenReported | index.js:274-279 | A requested token that does not resolve gets a 400 whose message names it |
| Worker.DrawnIconsAreCatalogEntries | index.js:283 | Every drawn key is a catalog key, and its tile holds that key's fragment |
| Worker.SvgsKeyGate | index.js:376-384 | With no key configured: 404. A provided key (header first, then query) that is missing or wrong: 401. Otherwise the conditional catalog dump |
| Worker.Routing | index.js:190-245 | Root gives the index page with no tag; `/favicon.ico` gives 204; `/robots.txt` gives 200; the three endpoints go to their routes; anything else gives 404 |
| Worker.FaviconWithTrailingSlashIsNotFound | index.js:233 | The favicon reply needs the exact pathname |
| Worker.RevalidationYields304 | index.js:285-291 | A 200 with a tag, requested again with that tag, gets a 304 with the same tag |
| Changelog.NormalizeVersion | scripts/extract-changelog.js:10-14 | Null exactly for a missing or blank argument; otherwise the trimmed text with one leading `v` removed |
| Changelog.NormalizeVersionStripsOneV | scripts/extract-changelog.js:11-13 | `v1.2` and ` v1.2\n` both give `1.2`; only one `v` is removed |
| Changelog.NormalizeVersionOfBareV | scripts/extract-changelog.js:12-13 | The argument `v` gives the empty version, not null |
| Changelog.SplitLines | scripts/extract-changelog.js:19 | `split(/\r?\n/)`: there is always at least one line; the next two lemmas fix the lines |
| Changelog.SplitLinesHaveNoNewline | scripts/extract-changelog.js:19 | No line contains `\n` |
| Changelog.JoinSplitLines | scripts/extract-changelog.js:19 | Joining the lines with `\n` gives the text with each `\r\n` turned into `\n` |
| Changelog.DoubleCarriageReturnKeepsOne | scripts/extract-changelog.js:19 | `a\r\r\nb` rejoins as `a\r\nb` |
| Changelog.IsHeader | scripts/extract-changelog.js:21 | `/^##\s+/`: the line starts with `##` and a whitespace character |
| Changelog.HeadingText | scripts/extract-changelog.js:22-27 | A heading's text is the trimmed text after `##` and whitespace. It is non-empty, has no line terminator, and occurs only on a `##` heading line |
| Changelog.FirstWhere | scripts/extract-changelog.js:30-47 | The first index at or after `from` whose line passes the test, or the line count |
| Changelog.SectionOf | scripts/extract-changelog.js:29-50 | The section: from the first heading that names the version up to the next `##` line or the end, joined with `\n` and trimmed, or null; ExtractSection is proved to compute it |
| Changelog.SectionAbsentIffNoHeading | scripts/extract-changelog.js:29-39 | The section is null exactly when no heading names `version` or `v` + `version` |
| Changelog.SectionStartsWithHeading | scripts/extract-changelog.js:30-50 | The section begins with the first matching heading line, trailing whitespace aside |
| Changelog.SectionEndsAtNextHeader | scripts/extract-changelog.js:41-50 | The section is the trimmed join of the lines from the heading up to the next `##` heading or the end |
| Changelog.HeadedJoin | scripts/extract-changelog.js:50 | Trimming lines that start with a heading keeps that heading line |
| Changelog.SubheadingIsNotHeader | scripts/extract-changelog.js:21 | A `###` line is not a `##` heading |
| Changelog.PaddedHeadingText | scripts/extract-changelog.js:23-25 | Whitespace around a heading's text is not part of it |
| Changelog.PaddedHeadingMatches | scripts/extract-changelog.js:23-33 | `## 1.0.1  ` and `## v1.0.1` both name version `1.0.1` |
| Changelog.NamesByHeading | scripts/extract-changelog.js:31-33 | The loop's test on one line is the heading-match predicate |
| Changelog.SectionAt | scripts/extract-changelog.js:29-50 | The section as given by its two bounds |
| Changelog.ExtractSection | scripts/extract-changelog.js:16-52 | The two loops and the slice compute exactly the section specification `SectionOf` |

## Left out

- `computeEtag` (index.js:171-178): the SHA-256 digest and its hex text are not modelled. The tag is the parameter `etag`, a function of the body.
- The `Server-Timing` header, `Date.now()`, sampled logging, `shouldLog` and `getLogSampleRate`: these are timing, randomness and console output.
- `getOptionalGlobal` and `getSvgsApiKey`: the probing of globals is replaced by the `Config` value.
- The root page: its HTML text is not modelled, only its status and headers.
- The SVG markup text: JavaScript number formatting and the layout of the markup are not modelled. The document is kept as its numbers and fragments.
- The `addEventListener` wiring, the outer 500 catch and `module.exports`: these are runtime plumbing.
- `build.js`, `dev.js` and the remaining scripts and configs: these are file-system, process and network work.
- `main` in scripts/extract-changelog.js: argument reading, file reading, printing and exit codes.
- `shortNames` is a plain finite map. JavaScript's `in` also finds inherited names such as `constructor`, and the model does not.
- Strings.Lower: only ASCII letters are lower-cased. `toLowerCase` also maps other Unicode letters.
- Params.ParseInt: values are exact integers. `parseInt` loses precision above 2^53, but every such value is over 50, so `perline` is refused either way.
- Params.Get: a query holds one value per name, the first given; a header set holds one value per name, the combined value `Headers.get` returns. Header names are compared in lower case, as `Headers` does.
- Worker.HandleRequest: the pathname is taken as already normalised by `new URL`. A string body with no explicit content type has `contentType` `None`.

=== FILE: catalog.dfy ===
/**
 * The icon catalog and the views the worker derives from it once at start-up:
 * `iconNameList` (base names, first occurrence first), `themedIcons` (bases
 * that have a `-light` or `-dark` key) and the `shortNames` alias table.
 */
module Catalog {
  import opened Strings

  /**
   * The packaged catalog: its keys in `Object.keys` order, and the map from
   * each key to the SVG fragment stored under it.
   */
  datatype Catalog = Catalog(keys: seq<string>, svg: map<string, string>)

  predicate Distinct(xs: seq<string>) {
    forall i, j :: 0 <= i < j < |xs| ==> xs[i] != xs[j]
  }

  /** `key.split('-')[0]`: the base name of a catalog key, the part before its first `-`. */
  function BaseName(key: string): (b: string)
    ensures b <= key
    ensures '-' !in b
    ensures |b| < |key| ==> key[|b|] == '-'
  {
    BaseNameShape(key);
    Split(key, '-')[0]
  }

  /** The first piece of `split('-')` is the part of the key before its first `-`, or the whole key. */
  lemma {:induction false} BaseNameShape(key: string)
    ensures Split(key, '-')[0] <= key
    ensures '-' !in Split(key, '-')[0]
    ensures |Split(key, '-')[0]| < |key| ==> key[|Split(key, '-')[0]|] == '-'
  {
    if key != [] {
      BaseNameShape(key[1..]);
      SplitCons(key[0], key[1..], '-');
      assert key == [key[0]] + key[1..];
    }
  }

  /** The index of the first occurrence of `x` in `xs`. */
  function FirstIndex(xs: seq<string>, x: string): (i: nat)
    requires x in xs
    ensures i < |xs| && xs[i] == x
    ensures forall j :: 0 <= j < i ==> xs[j] != x
  {
    if xs[0] == x then 0 else 1 + FirstIndex(xs[1..], x)
  }

  /** `[...new Set(xs)]`: the elements of `xs` without repeats, in order of first occurrence. */
  function Dedup(xs: seq<string>): (r: seq<string>)
    ensures forall x :: x in r <==> x in xs
    ensures Distinct(r)
  {
    if xs == [] then []
    else
      var d := Dedup(xs[..|xs| - 1]);
      var x := xs[|xs| - 1];
      assert forall y :: y in xs <==> y in xs[..|xs| - 1] || y == x;
      if x in d then d else d + [x]
  }

  lemma FirstIndexOfExtension(p: seq<string>, x: string, y: string)
    requires y in p
    ensures FirstIndex(p + [x], y) == FirstIndex(p, y)
  {
    var i := FirstIndex(p, y);
    var j := FirstIndex(p + [x], y);
    assert (p + [x])[i] == y;
    assert p[j] == y || j == |p|;
  }

  /** `Dedup` keeps the order in which elements first occur. */
  lemma {:induction false} DedupKeepsFirstOccurrenceOrder(xs: seq<string>)
    ensures forall i, j :: 0 <= i < j < |Dedup(xs)| ==>
      FirstIndex(xs, Dedup(xs)[i]) < FirstIndex(xs, Dedup(xs)[j])
  {
    if xs != [] {
      var p := xs[..|xs| - 1];
      var x := xs[|xs| - 1];
      assert xs == p + [x];
      DedupKeepsFirstOccurrenceOrder(p);
      var d := Dedup(p);
      forall y | y in d
        ensures FirstIndex(xs, y) == FirstIndex(p, y) < |p|
      {
        FirstIndexOfExtension(p, x, y);
      }
      if x !in d {
        assert x !in p;
        assert FirstIndex(xs, x) == |p|;
      }
    }
  }

  /** The base name of every key, in key order. */
  function Bases(keys: seq<string>): (r: seq<string>)
    ensures |r| == |keys|
    ensures forall i :: 0 <= i < |keys| ==> r[i] == BaseName(keys[i])
  {
    if keys == [] then [] else [BaseName(keys[0])] + Bases(keys[1..])
  }

  /** `iconNameList`. */
  function BaseNames(c: Catalog): (r: seq<string>)
    ensures Distinct(r)
    ensures forall b :: b in r <==> exists i :: 0 <= i < |c.keys| && BaseName(c.keys[i]) == b
  {
    var bases := Bases(c.keys);
    assert forall i :: 0 <= i < |c.keys| ==> bases[i] == BaseName(c.keys[i]);
    Dedup(bases)
  }

  /** A key that names a theme variant: `i.includes('-light') || i.includes('-dark')`. */
  predicate IsThemedKey(key: string) {
    Contains(key, "-light") || Contains(key, "-dark")
  }

  /** `themedIcons` over a list of keys: the base name of every themed key, in key order. */
  function ThemedBasesOf(keys: seq<string>): (r: seq<string>)
    ensures |r| <= |keys|
    ensures forall b :: b in r <==>
      exists i :: 0 <= i < |keys| && IsThemedKey(keys[i]) && BaseName(keys[i]) == b
  {
    if keys == [] then []
    else
      var rest := ThemedBasesOf(keys[1..]);
      assert forall i :: 0 < i < |keys| ==> keys[i] == keys[1..][i - 1];
      (if IsThemedKey(keys[0]) then [BaseName(keys[0])] else []) + rest
  }

  /** `themedIcons`. */
  function ThemedBases(c: Catalog): seq<string> {
    ThemedBasesOf(c.keys)
  }

  /** Every themed base is also a base name. */
  lemma ThemedBasesAreBaseNames(c: Catalog, b: string)
    requires b in ThemedBases(c)
    ensures b in BaseNames(c)
  {
  }

  /** `shortNames`: short tokens accepted in place of a base name. */
  const ShortNames: map<string, string> := map[
    "js" := "javascript",
    "ts" := "typescript",
    "py" := "python",
    "tailwind" := "tailwindcss",
    "vue" := "vuejs",
    "nuxt" := "nuxtjs",
    "go" := "golang",
    "cf" := "cloudflare",
    "wasm" := "webassembly",
    "postgres" := "postgresql",
    "k8s" := "kubernetes",
    "next" := "nextjs",
    "mongo" := "mongodb",
    "md" := "markdown",
    "ps" := "photoshop",
    "ai" := "illustrator",
    "pr" := "premiere",
    "ae" := "aftereffects",
    "scss" := "sass",
    "sc" := "scala",
    "net" := "dotnet",
    "gatsbyjs" := "gatsby",
    "gql" := "graphql",
    "vlang" := "v",
    "amazonwebservices" := "aws",
    "bots" := "discordbots",
    "express" := "expressjs",
    "googlecloud" := "gcp",
    "mui" := "materialui",
    "windi" := "windicss",
    "unreal" := "unrealengine",
    "nest" := "nestjs",
    "ktorio" := "ktor",
    "pwsh" := "powershell",
    "au" := "audition",
    "rollup" := "rollupjs",
    "rxjs" := "reactivex",
    "rxjava" := "reactivex",
    "ghactions" := "githubactions",
    "sklearn" := "scikitlearn"
  ]
}

=== FILE: changelog.dfy ===
/**
 * The release-notes extractor: `normalizeVersion` turns a command-line
 * argument into a version, and `extractSection` cuts that version's section
 * out of a Markdown changelog.
 */
module Changelog {
  import opened Wrappers
  import opened Strings

  /** `normalizeVersion`: the trimmed argument without one leading `v`, or null when blank. */
  function NormalizeVersion(input: Option<string>): (r: Option<string>)
    ensures r.None? <==> input.None? || IsBlank(input.value)
    ensures r.Some? ==>
      var raw := Trim(input.value);
      if raw[0] == 'v' then r.value == raw[1..] else r.value == raw
  {
    var raw := Trim(input.GetOr(""));
    if raw == "" then None
    else if raw[0] == 'v' then Some(raw[1..])
    else Some(raw)
  }

  /** Only one `v` is removed, and whitespace around the argument is ignored. */
  lemma NormalizeVersionStripsOneV(x: string)
    requires IsTrimmed(x) && x != ""
    ensures NormalizeVersion(Some("v" + x)) == Some(x)
    ensures NormalizeVersion(Some(" v" + x + "\n")) == Some(x)
  {
    var s := "v" + x;
    assert s[0] == 'v' && s[|s| - 1] == x[|x| - 1];
    TrimOfTrimmed(s);
    assert s[1..] == x;
    assert " v" + x + "\n" == " " + s + "\n";
    TrimOfPadded(" ", s, "\n");
  }

  /** The lone argument `v` normalises to the empty version, which is not null. */
  lemma NormalizeVersionOfBareV()
    ensures NormalizeVersion(Some("v")) == Some("")
  {
    TrimOfTrimmed("v");
  }

  /** `markdown.split(/\r?\n/)`: lines separated by `\n` or `\r\n`; a lone `\r` stays in its line. */
  function SplitLines(s: string): (lines: seq<string>)
    ensures |lines| >= 1
  {
    if s == [] then [""]
    else if s[0] == '\n' then [""] + SplitLines(s[1..])
    else if |s| >= 2 && s[0] == '\r' && s[1] == '\n' then [""] + SplitLines(s[2..])
    else
      var rest := SplitLines(s[1..]);
      [[s[0]] + rest[0]] + rest[1..]
  }

  /** `s` with every `\r` that directly precedes a `\n` removed. */
  function StripCrBeforeLf(s: string): (r: string)
    ensures |r| <= |s|
  {
    if s == [] then []
    else if |s| >= 2 && s[0] == '\r' && s[1] == '\n' then StripCrBeforeLf(s[1..])
    else [s[0]] + StripCrBeforeLf(s[1..])
  }

  /** No line contains a `\n`. */
  lemma {:induction false} SplitLinesHaveNoNewline(s: string)
    ensures forall i :: 0 <= i < |SplitLines(s)| ==> '\n' !in SplitLines(s)[i]
  {
    if s == [] {
    } else if s[0] == '\n' {
      SplitLinesHaveNoNewline(s[1..]);
    } else if |s| >= 2 && s[0] == '\r' && s[1] == '\n' {
      SplitLinesHaveNoNewline(s[2..]);
    } else {
      SplitLinesHaveNoNewline(s[1..]);
      var rest := SplitLines(s[1..]);
      assert SplitLines(s)[1..] == rest[1..];
    }
  }

  /**
   * Joining the lines with `\n` gives the input with each `\r\n` turned into
   * `\n`: the only change the line split makes to the text.
   */
  lemma {:induction false} JoinSplitLines(s: string)
    ensures Join(SplitLines(s), "\n") == StripCrBeforeLf(s)
  {
    if s == [] {
    } else if s[0] == '\n' {
      JoinSplitLines(s[1..]);
      JoinEmptyFirst(SplitLines(s[1..]), "\n");
    } else if |s| >= 2 && s[0] == '\r' && s[1] == '\n' {
      JoinSplitLines(s[2..]);
      JoinEmptyFirst(SplitLines(s[2..]), "\n");
      assert s[1..][1..] == s[2..];
    } else {
      JoinSplitLines(s[1..]);
      JoinPrepend(s[0], SplitLines(s[1..]), "\n");
    }
  }

  /** A `\r` directly before a `\r\n` survives: the text keeps one `\r\n`. */
  lemma DoubleCarriageReturnKeepsOne()
    ensures Join(SplitLines("a\r\r\nb"), "\n") == "a\r\nb"
  {
    JoinSplitLines("a\r\r\nb");
    assert StripCrBeforeLf("b") == "b";
    assert StripCrBeforeLf("\nb") == "\nb";
    assert StripCrBeforeLf("\r\nb") == "\nb";
    assert StripCrBeforeLf("\r\r\nb") == "\r\nb";
  }

  /** `/^##\s+/.test(line)`. */
  predicate IsHeader(line: string) {
    |line| >= 3 && line[0] == '#' && line[1] == '#' && IsWhitespace(line[2])
  }

  predicate HasLineTerminator(s: string) {
    exists k :: 0 <= k < |s| && IsLineTerminator(s[k])
  }

  /**
   * `headerMatches(line)`: the trimmed text that `/^##\s+(.+?)\s*$/` captures,
   * or null when the line is not a heading. The capture cannot cross a line
   * terminator; an empty text counts as no heading.
   */
  function HeadingText(line: string): (h: Option<string>)
    ensures h.Some? ==> IsHeader(line) && h.value != "" && IsTrimmed(h.value) && !HasLineTerminator(h.value)
    ensures h.Some? ==> h.value == Trim(line[2..])
    ensures IsHeader(line) && Trim(line[2..]) != "" && !HasLineTerminator(Trim(line[2..])) ==> h.Some?
  {
    if !IsHeader(line) then None
    else
      var t := Trim(line[2..]);
      if t == "" || HasLineTerminator(t) then None else Some(t)
  }

  /** `h === version || h === \`v${version}\``. */
  predicate HeadingMatches(line: string, version: string) {
    var h := HeadingText(line);
    h.Some? && (h.value == version || h.value == "v" + version)
  }

  /** The lines whose heading names `version`, with or without its `v`. */
  function Names(version: string): string -> bool {
    line => HeadingMatches(line, version)
  }

  /** The first index at or after `from` whose line satisfies `p`, or `|lines|`. */
  function FirstWhere(lines: seq<string>, p: string -> bool, from: nat): (i: nat)
    requires from <= |lines|
    ensures from <= i <= |lines|
    ensures forall k :: from <= k < i ==> !p(lines[k])
    ensures i < |lines| ==> p(lines[i])
    decreases |lines| - from
  {
    if from == |lines| then from
    else if p(lines[from]) then from
    else FirstWhere(lines, p, from + 1)
  }

  /**
   * The section of `version` in the lines of a changelog: from the first
   * heading naming it up to, not including, the next `##` heading, joined with
   * `\n` and trimmed.
   */
  function SectionOf(lines: seq<string>, version: string): Option<string> {
    var start := FirstWhere(lines, Names(version), 0);
    if start == |lines| then None
    else Some(Trim(Join(lines[start..FirstWhere(lines, IsHeader, start + 1)], "\n")))
  }

  /** The section is absent exactly when no heading names the version, with or without `v`. */
  lemma SectionAbsentIffNoHeading(lines: seq<string>, version: string)
    ensures SectionOf(lines, version).None? <==>
      forall k :: 0 <= k < |lines| ==> !HeadingMatches(lines[k], version)
  {
  }

  /**
   * A section starts with the first heading that names the version, trailing
   * whitespace aside.
   */
  lemma SectionStartsWithHeading(lines: seq<string>, version: string)
    requires SectionOf(lines, version).Some?
    ensures var s := FirstWhere(lines, Names(version), 0);
      s < |lines| && HeadingMatches(lines[s], version) && TrimEnd(lines[s]) <= SectionOf(lines, version).value
  {
    var s := FirstWhere(lines, Names(version), 0);
    var e := FirstWhere(lines, IsHeader, s + 1);
    SectionAt(lines, version, s, e);
    HeadedJoin(lines[s..e]);
  }

  /**
   * A section runs from its heading up to the next line that is a `##`
   * heading, whatever that heading names, or to the last line.
   */
  lemma SectionEndsAtNextHeader(lines: seq<string>, version: string)
    requires SectionOf(lines, version).Some?
    ensures exists e ::
      var s := FirstWhere(lines, Names(version), 0);
      && s < e <= |lines|
      && (forall k :: s < k < e ==> !IsHeader(lines[k]))
      && (e < |lines| ==> IsHeader(lines[e]))
      && SectionOf(lines, version) == Some(Trim(Join(lines[s..e], "\n")))
  {
    var s := FirstWhere(lines, Names(version), 0);
    var e := FirstWhere(lines, IsHeader, s + 1);
    SectionAt(lines, version, s, e);
  }

  /** Trimming lines joined after a heading line keeps that line, trailing whitespace aside. */
  lemma HeadedJoin(body: seq<string>)
    requires |body| >= 1 && IsHeader(body[0])
    ensures TrimEnd(body[0]) <= Trim(Join(body, "\n"))
  {
    var joined := Join(body, "\n");
    var rest := if |body| == 1 then "" else "\n" + Join(body[1..], "\n");
    assert joined == body[0] + rest;
    assert joined[0] == '#';
    assert LeadingWhitespace(joined) == 0;
    assert TrimStart(joined) == joined;
    TrimEndOfConcat(body[0], rest);
  }

  /** A `###` line is not a `##` heading, so it does not end a section. */
  lemma SubheadingIsNotHeader(rest: string)
    ensures !IsHeader("###" + rest)
  {
    assert ("###" + rest)[2] == '#';
  }

  /** Whitespace between `##` and the text, and after the text, is not part of the heading. */
  lemma PaddedHeadingText(pad: string, text: string, trail: string)
    requires IsBlank(pad) && pad != [] && IsBlank(trail)
    requires IsTrimmed(text) && text != [] && !HasLineTerminator(text)
    ensures HeadingText("##" + pad + text + trail) == Some(text)
  {
    var line := "##" + pad + text + trail;
    assert line[2..] == pad + text + trail;
    assert line[2] == pad[0];
    TrimOfPadded(pad, text, trail);
  }

  /** A heading names the version whether or not it writes the `v`. */
  lemma PaddedHeadingMatches(pad: string, version: string, trail: string)
    requires IsBlank(pad) && pad != [] && IsBlank(trail)
    requires IsTrimmed(version) && version != [] && !HasLineTerminator(version)
    ensures HeadingMatches("##" + pad + version + trail, version)
    ensures HeadingMatches("##" + pad + "v" + version + trail, version)
  {
    PaddedHeadingText(pad, version, trail);
    var v := "v" + version;
    assert v[|v| - 1] == version[|version| - 1];
    assert !HasLineTerminator(v) by {
      assert forall k :: 1 <= k < |v| ==> v[k] == version[k - 1];
    }
    assert "##" + pad + "v" + version + trail == "##" + pad + v + trail;
    PaddedHeadingText(pad, v, trail);
  }

  /** The test the first loop of `extractSection` makes on each line. */
  lemma NamesByHeading(line: string, version: string, h: Option<string>)
    requires h == HeadingText(line)
    ensures Names(version)(line) <==> h.Some? && (h.value == version || h.value == "v" + version)
  {
  }

  lemma SectionAt(lines: seq<string>, version: string, s: nat, e: nat)
    requires s == FirstWhere(lines, Names(version), 0) < |lines|
    requires e == FirstWhere(lines, IsHeader, s + 1)
    ensures SectionOf(lines, version) == Some(Trim(Join(lines[s..e], "\n")))
  {
  }

  /** `extractSection(markdown, version)`. */
  method ExtractSection(markdown: string, version: string) returns (section: Option<string>)
    ensures section == SectionOf(SplitLines(markdown), version)
  {
    var lines := SplitLines(markdown);
    ghost var names := Names(version);

    var startIndex := -1;
    var i := 0;
    while i < |lines|
      invariant 0 <= i <= |lines|
      invariant FirstWhere(lines, names, 0) == FirstWhere(lines, names, i)
    {
      var h := HeadingText(lines[i]);
      NamesByHeading(lines[i], version, h);
      if h.Some? && (h.value == version || h.value == "v" + version) {
        startIndex := i;
        break;
      }
      i := i + 1;
    }
    if startIndex == -1 {
      return None;
    }

    var endIndex := |lines|;
    i := startIndex + 1;
    while i < |lines|
      invariant startIndex + 1 <= i <= |lines|
      invariant FirstWhere(lines, IsHeader, startIndex + 1) == FirstWhere(lines, IsHeader, i)
    {
      if IsHeader(lines[i]) {
        endIndex := i;
        break;
      }
      i := i + 1;
    }
    section := Some(Trim(Join(lines[startIndex..endIndex], "\n")));
    SectionAt(lines, version, startIndex, endIndex);
  }
}

=== FILE: grid.dfy ===
/**
 * `generateSvg`: the geometry of the image the worker returns. Icons are laid
 * out left to right, `perLine` to a row, each in a 300-unit cell holding a
 * 256-unit icon; the image is the grid minus the 44-unit gutter after the last
 * column and row, scaled so that one icon is 48 pixels.
 */
module Grid {

  /** The side of one cell of the grid, icon plus gutter. */
  const Cell: int := 300
  /** The gutter trimmed from the right and bottom edges. */
  const Gutter: int := 44
  /** `ONE_ICON`: the side of one icon in the rendered image, in pixels. */
  const OneIcon: real := 48.0
  /** `SCALE`. */
  const Scale: real := OneIcon / (300.0 - 44.0)

  /** One `<g transform="translate(x, y)">` group and the fragment inside it. */
  datatype Tile = Tile(x: int, y: int, fragment: string)

  /**
   * The generated document: the view box (`length` by `height`), the
   * `width`/`height` attributes and the tiles in order.
   */
  datatype SvgDoc = SvgDoc(width: int, height: int, scaledWidth: real, scaledHeight: real, tiles: seq<Tile>)

  function Min(a: int, b: int): (m: int)
    ensures m <= a && m <= b && (m == a || m == b)
  {
    if a <= b then a else b
  }

  /** `Math.ceil(n / d)` for a non-negative `n` and a positive `d`. */
  function CeilDiv(n: nat, d: nat): (q: nat)
    requires d > 0
    ensures q * d >= n
    ensures q == 0 || (q - 1) * d < n
  {
    (n + d - 1) / d
  }

  /** `icons[i]`: the stored fragment, or the text a missing entry interpolates as. */
  function Fragment(svg: map<string, string>, name: string): string {
    if name in svg then svg[name] else "undefined"
  }

  /** `generateSvg(iconNames, perLine)`. */
  function GenerateSvg(svg: map<string, string>, names: seq<string>, perLine: nat): (doc: SvgDoc)
    requires perLine >= 1
    ensures |doc.tiles| == |names|
    ensures forall i :: 0 <= i < |names| ==> doc.tiles[i].fragment == Fragment(svg, names[i])
    ensures forall i :: 0 <= i < |names| ==>
      doc.tiles[i].x == (i % perLine) * Cell && doc.tiles[i].y == (i / perLine) * Cell
    ensures doc.width == Min(perLine, |names|) * Cell - Gutter
    ensures doc.height == CeilDiv(|names|, perLine) * Cell - Gutter
    ensures doc.scaledWidth == doc.width as real * Scale
    ensures doc.scaledHeight == doc.height as real * Scale
  {
    var length := Min(perLine * Cell, |names| * Cell) - Gutter;
    var height := CeilDiv(|names|, perLine) * Cell - Gutter;
    var tiles := seq(|names|, i requires 0 <= i < |names| =>
      Tile((i % perLine) * Cell, (i / perLine) * Cell, Fragment(svg, names[i])));
    SvgDoc(length, height, length as real * Scale, height as real * Scale, tiles)
  }

  /** The number of rows is the least that holds every icon. */
  lemma RowsAreTheLeastThatFit(n: nat, perLine: nat)
    requires perLine >= 1 && n >= 1
    ensures var rows := CeilDiv(n, perLine); (rows - 1) * perLine < n <= rows * perLine
  {
  }

  /** Every tile's 256-unit icon lies inside the view box, for a non-empty list. */
  lemma {:induction false} TileInsideViewBox(svg: map<string, string>, names: seq<string>, perLine: nat, i: nat)
    requires perLine >= 1 && i < |names|
    ensures var doc := GenerateSvg(svg, names, perLine);
      && 0 <= doc.tiles[i].x && doc.tiles[i].x + (Cell - Gutter) <= doc.width
      && 0 <= doc.tiles[i].y && doc.tiles[i].y + (Cell - Gutter) <= doc.height
  {
    var n := |names|;
    var col, row := i % perLine, i / perLine;
    assert col < perLine && col <= i;
    assert col + 1 <= Min(perLine, n);
    var rows := CeilDiv(n, perLine);
    assert i == row * perLine + col;
    assert row * perLine < rows * perLine;
    MulCancel(row, rows, perLine);
  }

  lemma MulMonotone(a: nat, b: nat, c: nat)
    requires a <= b
    ensures a * c <= b * c
  {
  }

  lemma MulCancel(a: nat, b: nat, c: nat)
    requires a * c < b * c
    ensures a < b
  {
  }

  /** No two tiles share a cell. */
  lemma {:induction false} TilesDoNotOverlap(svg: map<string, string>, names: seq<string>, perLine: nat, i: nat, j: nat)
    requires perLine >= 1 && i < j < |names|
    ensures var doc := GenerateSvg(svg, names, perLine);
      doc.tiles[i].x != doc.tiles[j].x || doc.tiles[i].y != doc.tiles[j].y
  {
    assert i == (i / perLine) * perLine + i % perLine;
    assert j == (j / perLine) * perLine + j % perLine;
  }

  /** A single row holds the icons when there are no more of them than `perLine`. */
  lemma SingleRow(svg: map<string, string>, names: seq<string>, perLine: nat)
    requires 1 <= |names| <= perLine
    ensures GenerateSvg(svg, names, perLine).height == Cell - Gutter
    ensures GenerateSvg(svg, names, perLine).width == |names| * Cell - Gutter
  {
    var q := CeilDiv(|names|, perLine);
    if q >= 2 {
      MulMonotone(1, q - 1, perLine);
    }
  }
}

=== FILE: params.dfy ===
/**
 * The query-string parsers of the worker: `normalizeIconParam`, `parseTheme`
 * and `parsePerLine`, with the `parseInt` they rely on.
 */
module Params {
  import opened Wrappers
  import opened Strings

  /** `ICONS_PER_LINE`: the row width used when `perline` is absent or blank. */
  const IconsPerLine: int := 15
  const MinPerLine: int := 1
  const MaxPerLine: int := 50

  datatype Theme = Light | Dark {
    /** The text appended to a themed base name, as in `react-dark`. */
    function Name(): string {
      match this
      case Light => "light"
      case Dark => "dark"
    }
  }

  /** `URLSearchParams`: the first value given for each parameter name. */
  type Query = map<string, string>

  /** `searchParams.get(name)`. */
  function Get(q: Query, name: string): Option<string> {
    if name in q then Some(q[name]) else None
  }

  /** JavaScript's `a || b` on two strings that may be null: `a` unless it is null or empty. */
  function Or(a: Option<string>, b: Option<string>): Option<string> {
    if a.Some? && a.value != "" then a else b
  }

  /** True of what `normalizeIconParam` may return as a token. */
  predicate IsCleanToken(t: string) {
    t != "" && IsTrimmed(t) && Lower(t) == t
  }

  /** The tokens of one piece: none when it is blank, else its trimmed lower-case form. */
  function CleanToken(part: string): seq<string> {
    var t := Lower(Trim(part));
    if t == "" then [] else [t]
  }

  /** `.map(s => s.trim().toLowerCase()).filter(Boolean)` over the comma-separated pieces. */
  function CleanTokens(parts: seq<string>): seq<string> {
    FlatMap(CleanToken, parts)
  }

  lemma {:induction false} CleanTokensAreClean(parts: seq<string>)
    ensures |CleanTokens(parts)| <= |parts|
    ensures forall i :: 0 <= i < |CleanTokens(parts)| ==> IsCleanToken(CleanTokens(parts)[i])
  {
    if parts != [] {
      LowerKeepsTrim(Trim(parts[0]));
      LowerIdempotent(Trim(parts[0]));
      CleanTokensAreClean(parts[1..]);
    }
  }

  /** `normalizeIconParam`. */
  function NormalizeIconParam(param: Option<string>): (r: seq<string>)
    ensures param.None? || param == Some("") ==> r == []
    ensures forall i :: 0 <= i < |r| ==> IsCleanToken(r[i])
  {
    if param.None? || param.value == "" then []
    else
      CleanTokensAreClean(Split(param.value, ','));
      CleanTokens(Split(param.value, ','))
  }

  /**
   * Tokens keep the order of the comma-separated list: the tokens of `a,b` are
   * those of `a` followed by those of `b`.
   */
  lemma {:induction false} NormalizeIconParamAtComma(a: string, b: string)
    ensures NormalizeIconParam(Some(a + "," + b)) ==
            NormalizeIconParam(Some(a)) + NormalizeIconParam(Some(b))
  {
    var s := a + "," + b;
    assert s == a + [','] + b;
    assert s != "";
    SplitAtSeparator(a, b, ',');
    FlatMapAppend(CleanToken, Split(a, ','), Split(b, ','));
    EmptyParamHasNoTokens();
    assert NormalizeIconParam(Some(a)) == CleanTokens(Split(a, ','));
    assert NormalizeIconParam(Some(b)) == CleanTokens(Split(b, ','));
    calc {
      NormalizeIconParam(Some(s));
      CleanTokens(Split(s, ','));
      CleanTokens(Split(a, ',') + Split(b, ','));
      CleanTokens(Split(a, ',')) + CleanTokens(Split(b, ','));
    }
  }

  /** The empty string splits into one blank piece, which is dropped. */
  lemma EmptyParamHasNoTokens()
    ensures CleanTokens(Split("", ',')) == []
  {
    assert Split("", ',') == [""];
    assert Lower(Trim("")) == "";
  }

  /** A piece without a comma gives its trimmed, lower-cased self, or nothing when blank. */
  lemma {:induction false} NormalizeIconParamSingle(s: string)
    requires ',' !in s
    ensures NormalizeIconParam(Some(s)) == if IsBlank(s) then [] else [Lower(Trim(s))]
  {
    if s != "" {
      SplitWithoutSeparator(s, ',');
      assert CleanTokens([s]) == CleanToken(s) + CleanTokens([]) by {
        assert [s][1..] == [];
      }
      LowerKeepsTrim(Trim(s));
      assert (Lower(Trim(s)) == "") == IsBlank(s);
      assert NormalizeIconParam(Some(s)) == CleanToken(s);
    }
  }

  /** The theme that a raw `t`/`theme` value selects, after trimming and lower-casing. */
  function ThemeFromText(raw: string): (r: Option<Theme>)
    ensures r == Some(Light) <==> Lower(Trim(raw)) == "light"
    ensures r == Some(Dark) <==> Lower(Trim(raw)) == "" || Lower(Trim(raw)) == "dark"
  {
    var theme := Lower(Trim(raw));
    if theme == "" then Some(Dark)
    else if theme != "dark" && theme != "light" then None
    else if theme == "light" then Some(Light)
    else Some(Dark)
  }

  /** `parseTheme`: `t` first, then `theme`, defaulting to dark. */
  function ParseTheme(q: Query): (r: Option<Theme>)
    ensures ((Get(q, "t").None? || IsBlank(Get(q, "t").value)) &&
             (Get(q, "theme").None? || IsBlank(Get(q, "theme").value))) ==> r == Some(Dark)
    ensures Get(q, "t").Some? && Get(q, "t").value != "" ==> r == ThemeFromText(Get(q, "t").value)
    ensures (Get(q, "t").None? || Get(q, "t").value == "") && Get(q, "theme").Some? && Get(q, "theme").value != ""
      ==> r == ThemeFromText(Get(q, "theme").value)
  {
    var raw := Or(Get(q, "t"), Get(q, "theme")).GetOr("");
    LowerKeepsTrim(Trim(raw));
    ThemeFromText(raw)
  }

  /** Trimming and lower-casing the text first never changes the theme it selects. */
  lemma {:induction false} ThemeFromTextNormalizes(raw: string)
    ensures ThemeFromText(raw) == ThemeFromText(Lower(Trim(raw)))
  {
    var t := Lower(Trim(raw));
    LowerKeepsTrim(Trim(raw));
    TrimOfTrimmed(t);
    LowerIdempotent(Trim(raw));
  }

  /** A theme's own name selects it back. */
  lemma ThemeNameRoundTrip(th: Theme)
    ensures ThemeFromText(th.Name()) == Some(th)
  {
    var n := th.Name();
    assert n[0] == 'l' || n[0] == 'd';
    assert n[|n| - 1] == 't' || n[|n| - 1] == 'k';
    TrimOfTrimmed(n);
    LowerOfLowerCase(n);
    assert Lower(Trim(n)) == n;
  }

  predicate IsDigit(c: char) {
    '0' <= c <= '9'
  }

  /** The longest prefix of decimal digits. */
  function LeadingDigits(s: string): (ds: string)
    ensures ds <= s
    ensures forall k :: 0 <= k < |ds| ==> IsDigit(ds[k])
    ensures |ds| < |s| ==> !IsDigit(s[|ds|])
  {
    if s != [] && IsDigit(s[0]) then [s[0]] + LeadingDigits(s[1..]) else []
  }

  function DigitsValue(ds: string): nat
    requires forall k :: 0 <= k < |ds| ==> IsDigit(ds[k])
  {
    if ds == [] then 0
    else
      var d := ds[|ds| - 1];
      assert IsDigit(d);
      DigitsValue(ds[..|ds| - 1]) * 10 + (d as int - '0' as int)
  }

  /** `Number.parseInt(s, 10)`, up to the point where a huge value stops being exact. */
  function ParseInt(s: string): (r: Option<int>)
    ensures r.None? <==> LeadingDigits(SignlessPart(TrimStart(s))) == []
  {
    var t := TrimStart(s);
    var negative := t != [] && t[0] == '-';
    var ds := LeadingDigits(SignlessPart(t));
    if ds == [] then None
    else
      var v: int := DigitsValue(ds);
      Some(if negative then -v else v)
  }

  /** The text after an optional leading sign. */
  function SignlessPart(t: string): string {
    if t != [] && (t[0] == '-' || t[0] == '+') then t[1..] else t
  }

  /** The row width that a raw `perline` value selects. */
  function PerLineFromText(raw: string): (r: Option<int>)
    ensures IsBlank(raw) ==> r == Some(IconsPerLine)
    ensures r.Some? ==> MinPerLine <= r.value <= MaxPerLine
  {
    var t := Trim(raw);
    if t == "" then Some(IconsPerLine)
    else
      match ParseInt(t)
      case None => None
      case Some(v) => if v < MinPerLine || v > MaxPerLine then None else Some(v)
  }

  /** `parsePerLine`. */
  function ParsePerLine(q: Query): (r: Option<int>)
    ensures Get(q, "perline").None? ==> r == Some(IconsPerLine)
    ensures Get(q, "perline").Some? ==> r == PerLineFromText(Get(q, "perline").value)
    ensures r.Some? ==> MinPerLine <= r.value <= MaxPerLine
  {
    PerLineFromText(Get(q, "perline").GetOr(""))
  }

  /** The decimal numeral of `n`, without leading zeros. */
  function Decimal(n: nat): (s: string)
    ensures s != [] && forall k :: 0 <= k < |s| ==> IsDigit(s[k])
  {
    var d := ['0' + (n % 10) as char];
    if n < 10 then d else Decimal(n / 10) + d
  }

  lemma {:induction false} DecimalValue(n: nat)
    ensures DigitsValue(Decimal(n)) == n
  {
    if n >= 10 {
      DecimalValue(n / 10);
      var s := Decimal(n);
      assert s[..|s| - 1] == Decimal(n / 10);
    }
  }

  lemma {:induction false} LeadingDigitsOfNumeral(ds: string, rest: string)
    requires forall k :: 0 <= k < |ds| ==> IsDigit(ds[k])
    requires rest == [] || !IsDigit(rest[0])
    ensures LeadingDigits(ds + rest) == ds
  {
    if ds != [] {
      assert (ds + rest)[1..] == ds[1..] + rest;
      LeadingDigitsOfNumeral(ds[1..], rest);
    } else {
      assert ds + rest == rest;
    }
  }

  /**
   * `perline` follows `parseInt`'s prefix rule: a numeral followed by any
   * non-digit text selects that number when it lies in [1, 50], and fails otherwise.
   */
  lemma {:induction false} PerLineOfNumeral(n: nat, rest: string)
    requires rest == [] || (!IsDigit(rest[0]) && !IsWhitespace(rest[|rest| - 1]))
    ensures PerLineFromText(Decimal(n) + rest) == if 1 <= n <= 50 then Some(n) else None
  {
    var ds := Decimal(n);
    var s := ds + rest;
    assert s[0] == ds[0] && IsDigit(ds[0]);
    assert s[|s| - 1] == if rest == [] then ds[|ds| - 1] else rest[|rest| - 1];
    TrimOfTrimmed(s);
    ParseIntOfNumeral(ds, rest);
    DecimalValue(n);
  }

  /** `parseInt` reads the leading numeral and ignores what follows it. */
  lemma {:induction false} ParseIntOfNumeral(ds: string, rest: string)
    requires ds != [] && forall k :: 0 <= k < |ds| ==> IsDigit(ds[k])
    requires rest == [] || !IsDigit(rest[0])
    ensures ParseInt(ds + rest) == Some(DigitsValue(ds))
  {
    var s := ds + rest;
    assert s[0] == ds[0];
    assert TrimStart(s) == s;
    assert SignlessPart(s) == s;
    LeadingDigitsOfNumeral(ds, rest);
  }

  /** Text with no leading digit (after an optional sign) is not a row width. */
  lemma PerLineOfNonNumeral(raw: string)
    requires !IsBlank(raw)
    requires LeadingDigits(SignlessPart(Trim(raw))) == []
    ensures PerLineFromText(raw) == None
  {
    assert TrimStart(Trim(raw)) == Trim(raw);
  }
}

=== FILE: resolver.dfy ===
/**
 * `resolveIcons`: turns the requested tokens into catalog keys, trying a token
 * as a base name first, then as a short name, and adding the theme suffix to
 * bases that come in light and dark variants.
 */
module Resolver {
  import opened Wrappers
  import opened Strings
  import opened Catalog
  import opened Params

  /**
   * The module-level tables `resolveIcons` consults: `iconNameList`,
   * `themedIcons`, `shortNames` and the catalog map `icons`.
   */
  datatype Tables = Tables(
    names: seq<string>,
    themed: seq<string>,
    aliases: map<string, string>,
    svg: map<string, string>)

  /** The tables as the worker builds them from the catalog at start-up. */
  function TablesOf(c: Catalog): Tables {
    Tables(BaseNames(c), ThemedBases(c), ShortNames, c.svg)
  }

  /** What becomes of one requested token. */
  datatype Outcome =
    | Blank                  // blank after trimming: skipped
    | Resolved(key: string)  // pushed onto `resolved`
    | Invalid(raw: string)   // pushed onto `invalid`, as it was requested

  /** The two lists `resolveIcons` returns. */
  datatype Resolution = Resolution(resolved: seq<string>, invalid: seq<string>)

  /** The base a lower-cased token names: itself when it is a base name, else its alias target. */
  function LookupBase(t: Tables, name: string): Option<string> {
    if name in t.names then Some(name)
    else if name in t.aliases then Some(t.aliases[name])
    else None
  }

  /** The catalog key a base stands for under a theme. */
  function ThemedKey(t: Tables, base: string, theme: Theme): string {
    if base in t.themed then base + "-" + theme.Name() else base
  }

  /** The body of the loop in `resolveIcons`, for one token. */
  function ResolveToken(t: Tables, raw: string, theme: Theme): Outcome {
    var name := Lower(Trim(raw));
    if name == "" then Blank
    else
      match LookupBase(t, name)
      case None => Invalid(raw)
      case Some(base) =>
        var key := ThemedKey(t, base, theme);
        if key in t.svg then Resolved(key) else Invalid(raw)
  }

  /**
   * A token is skipped exactly when it is blank; a resolved token names a key
   * that exists, and that key is its base, bare or suffixed with the theme; an
   * invalid token is reported as it was written.
   */
  lemma ResolveTokenOutcome(t: Tables, raw: string, theme: Theme)
    ensures var o := ResolveToken(t, raw, theme);
      && (o.Blank? <==> IsBlank(raw))
      && (o.Resolved? ==> o.key in t.svg)
      && (o.Resolved? ==>
            var base := LookupBase(t, Lower(Trim(raw)));
            base.Some? && (o.key == base.value || o.key == base.value + "-" + theme.Name()))
      && (o.Invalid? ==> o.raw == raw)
      && (var base := LookupBase(t, Lower(Trim(raw)));
          !IsBlank(raw) && base.Some? && ThemedKey(t, base.value, theme) in t.svg ==>
            o == Resolved(ThemedKey(t, base.value, theme)))
      && (var base := LookupBase(t, Lower(Trim(raw)));
          !IsBlank(raw) && (base.None? || ThemedKey(t, base.value, theme) !in t.svg) ==>
            o == Invalid(raw))
  {
    LowerKeepsTrim(Trim(raw));
  }

  /** What an outcome pushes onto `resolved`. */
  function KeyPart(o: Outcome): seq<string> {
    if o.Resolved? then [o.key] else []
  }

  /** What an outcome pushes onto `invalid`. */
  function RawPart(o: Outcome): seq<string> {
    if o.Invalid? then [o.raw] else []
  }

  /** The handling of one token under fixed tables and theme. */
  function Step(t: Tables, theme: Theme): string -> Outcome {
    raw => ResolveToken(t, raw, theme)
  }

  /** The two lists after `step` has handled every token in turn. */
  function Collect(step: string -> Outcome, tokens: seq<string>): Resolution {
    if tokens == [] then Resolution([], [])
    else
      var r := Collect(step, tokens[..|tokens| - 1]);
      var o := step(tokens[|tokens| - 1]);
      Resolution(r.resolved + KeyPart(o), r.invalid + RawPart(o))
  }

  /** `resolveIcons(requestedNames, theme)`. */
  function Resolve(t: Tables, tokens: seq<string>, theme: Theme): Resolution {
    Collect(Step(t, theme), tokens)
  }

  lemma {:induction false} CollectAppend(step: string -> Outcome, a: seq<string>, b: seq<string>)
    ensures Collect(step, a + b).resolved == Collect(step, a).resolved + Collect(step, b).resolved
    ensures Collect(step, a + b).invalid == Collect(step, a).invalid + Collect(step, b).invalid
    decreases |b|
  {
    if b == [] {
      assert a + b == a;
    } else {
      var b', x := b[..|b| - 1], b[|b| - 1];
      assert b == b' + [x];
      assert a + b == (a + b') + [x];
      CollectAppend(step, a, b');
      CollectSnoc(step, a + b', x);
      CollectSnoc(step, b', x);
    }
  }

  /** Handling one more token appends its outcome's part to each list. */
  lemma CollectSnoc(step: string -> Outcome, tokens: seq<string>, x: string)
    ensures Collect(step, tokens + [x]).resolved == Collect(step, tokens).resolved + KeyPart(step(x))
    ensures Collect(step, tokens + [x]).invalid == Collect(step, tokens).invalid + RawPart(step(x))
  {
    var s := tokens + [x];
    assert s[..|s| - 1] == tokens;
  }

  /**
   * Both lists keep request order and duplicates: resolving `a + b` gives the
   * lists of `a` followed by those of `b`.
   */
  lemma ResolveAppend(t: Tables, a: seq<string>, b: seq<string>, theme: Theme)
    ensures Resolve(t, a + b, theme).resolved == Resolve(t, a, theme).resolved + Resolve(t, b, theme).resolved
    ensures Resolve(t, a + b, theme).invalid == Resolve(t, a, theme).invalid + Resolve(t, b, theme).invalid
  {
    CollectAppend(Step(t, theme), a, b);
  }

  lemma {:induction false} CollectMembers(step: string -> Outcome, tokens: seq<string>, x: string)
    ensures x in Collect(step, tokens).resolved <==>
      exists i :: 0 <= i < |tokens| && step(tokens[i]) == Resolved(x)
    ensures x in Collect(step, tokens).invalid <==>
      exists i :: 0 <= i < |tokens| && step(tokens[i]) == Invalid(x)
  {
    if tokens != [] {
      var init := tokens[..|tokens| - 1];
      CollectMembers(step, init, x);
      assert forall i :: 0 <= i < |init| ==> init[i] == tokens[i];
    }
  }

  /** Every resolved key exists in the catalog. */
  lemma ResolvedKeysInCatalog(t: Tables, tokens: seq<string>, theme: Theme, k: string)
    requires k in Resolve(t, tokens, theme).resolved
    ensures k in t.svg
  {
    CollectMembers(Step(t, theme), tokens, k);
    var i :| 0 <= i < |tokens| && Step(t, theme)(tokens[i]) == Resolved(k);
    ResolveTokenOutcome(t, tokens[i], theme);
  }

  /**
   * `invalid` holds exactly the requested tokens, as they were written, that
   * are not blank and do not resolve.
   */
  lemma InvalidAreUnresolvedTokens(t: Tables, tokens: seq<string>, theme: Theme, tok: string)
    ensures tok in Resolve(t, tokens, theme).invalid <==> tok in tokens && ResolveToken(t, tok, theme).Invalid?
  {
    CollectMembers(Step(t, theme), tokens, tok);
    if tok in Resolve(t, tokens, theme).invalid {
      var i :| 0 <= i < |tokens| && Step(t, theme)(tokens[i]) == Invalid(tok);
      ResolveTokenOutcome(t, tokens[i], theme);
    }
    if tok in tokens && ResolveToken(t, tok, theme).Invalid? {
      var i :| 0 <= i < |tokens| && tokens[i] == tok;
      ResolveTokenOutcome(t, tok, theme);
      assert Step(t, theme)(tokens[i]) == Invalid(tok);
    }
  }

  /** The number of tokens that are not blank. */
  function NonBlankCount(tokens: seq<string>): nat {
    if tokens == [] then 0
    else NonBlankCount(tokens[..|tokens| - 1]) + if IsBlank(tokens[|tokens| - 1]) then 0 else 1
  }

  /** Every non-blank token lands in exactly one of the two lists; blank tokens in neither. */
  lemma {:induction false} ResolutionPartitionsTokens(t: Tables, tokens: seq<string>, theme: Theme)
    ensures |Resolve(t, tokens, theme).resolved| + |Resolve(t, tokens, theme).invalid| == NonBlankCount(tokens)
  {
    if tokens != [] {
      ResolutionPartitionsTokens(t, tokens[..|tokens| - 1], theme);
      ResolveTokenOutcome(t, tokens[|tokens| - 1], theme);
    }
  }

  /** The theme only matters for bases that have light and dark variants. */
  lemma ThemeMattersOnlyForThemedBases(t: Tables, raw: string)
    requires var base := LookupBase(t, Lower(Trim(raw))); base.Some? ==> base.value !in t.themed
    ensures ResolveToken(t, raw, Light) == ResolveToken(t, raw, Dark)
  {
  }

  /**
   * A non-blank token whose base has light and dark variants resolves to
   * `base-theme` when that key is in the catalog, so the two themes never
   * give the same outcome.
   */
  lemma ThemedBaseResolvesPerTheme(t: Tables, raw: string, theme: Theme)
    requires !IsBlank(raw)
    requires var base := LookupBase(t, Lower(Trim(raw))); base.Some? && base.value in t.themed
    requires LookupBase(t, Lower(Trim(raw))).value + "-" + theme.Name() in t.svg
    ensures ResolveToken(t, raw, theme) == Resolved(LookupBase(t, Lower(Trim(raw))).value + "-" + theme.Name())
    ensures ResolveToken(t, raw, Light) != ResolveToken(t, raw, Dark)
  {
    var base := LookupBase(t, Lower(Trim(raw))).value;
    ResolveTokenOutcome(t, raw, theme);
    ResolveTokenOutcome(t, raw, Light);
    ResolveTokenOutcome(t, raw, Dark);
    assert |base + "-" + Light.Name()| != |base + "-" + Dark.Name()|;
  }

  /**
   * A normalised short name that is not itself a base name resolves to its
   * alias target, when that target has no theme variants and is in the catalog
   * (`js` gives `javascript`).
   */
  lemma AliasResolvesToTarget(t: Tables, alias: string, theme: Theme)
    requires IsCleanToken(alias) && alias !in t.names && alias in t.aliases
    requires t.aliases[alias] !in t.themed && t.aliases[alias] in t.svg
    ensures ResolveToken(t, alias, theme) == Resolved(t.aliases[alias])
  {
    TrimOfTrimmed(alias);
  }

  /** A token that is a base name is never looked up in the alias table. */
  lemma BaseNameShadowsAlias(t: Tables, name: string)
    requires name in t.names
    ensures LookupBase(t, name) == Some(name)
  {
  }

  /**
   * `resolveIcons` as the worker runs it: one pass over the tokens, pushing
   * each onto `resolved` or `invalid`.
   */
  method ResolveIcons(t: Tables, requested: seq<string>, theme: Theme)
    returns (resolved: seq<string>, invalid: seq<string>)
    ensures Resolution(resolved, invalid) == Resolve(t, requested, theme)
  {
    resolved, invalid := [], [];
    for i := 0 to |requested|
      invariant Resolution(resolved, invalid) == Resolve(t, requested[..i], theme)
    {
      var rawName := requested[i];
      ghost var before := Resolution(resolved, invalid);
      assert requested[..i + 1] == requested[..i] + [rawName];
      CollectSnoc(Step(t, theme), requested[..i], rawName);
      ghost var o := ResolveToken(t, rawName, theme);
      assert Step(t, theme)(rawName) == o;
      var name := Lower(Trim(rawName));
      if name != "" {
        var base: Option<string> := None;
        if name in t.names {
          base := Some(name);
        } else if name in t.aliases {
          base := Some(t.aliases[name]);
        }
        assert base == LookupBase(t, name);
        if base.None? {
          assert o == Invalid(rawName);
          invalid := invalid + [rawName];
        } else {
          var themedName := if base.value in t.themed then base.value + "-" + theme.Name() else base.value;
          assert themedName == ThemedKey(t, base.value, theme);
          if themedName !in t.svg {
            assert o == Invalid(rawName);
            invalid := invalid + [rawName];
          } else {
            assert o == Resolved(themedName);
            resolved := resolved + [themedName];
          }
        }
      } else {
        assert o == Blank;
      }
      assert resolved == before.resolved + KeyPart(o) by {
        if !o.Resolved? { assert before.resolved + [] == before.resolved; }
      }
      assert invalid == before.invalid + RawPart(o) by {
        if !o.Invalid? { assert before.invalid + [] == before.invalid; }
      }
    }
    assert requested[..|requested|] == requested;
  }
}

=== FILE: strings.dfy ===
/**
 * The JavaScript string operations the worker and the changelog script rely on:
 * `trim`, `toLowerCase`, `split`, `join`, `includes` and the UTF-16 `length`.
 */
module Strings {

  /** ECMAScript WhiteSpace and LineTerminator code points: what `trim` removes and `\s` matches. */
  predicate IsWhitespace(c: char) {
    || c == '\t' || c == '\n' || c == '\U{0B}' || c == '\U{0C}' || c == '\r' || c == ' '
    || c == '\U{A0}' || c == '\U{1680}' || ('\U{2000}' <= c <= '\U{200A}')
    || c == '\U{2028}' || c == '\U{2029}' || c == '\U{202F}' || c == '\U{205F}'
    || c == '\U{3000}' || c == '\U{FEFF}'
  }

  /** The characters a regular-expression `.` does not match. */
  predicate IsLineTerminator(c: char) {
    c == '\n' || c == '\r' || c == '\U{2028}' || c == '\U{2029}'
  }

  predicate IsBlank(s: string) {
    forall k :: 0 <= k < |s| ==> IsWhitespace(s[k])
  }

  /** A string `trim` leaves as it is. */
  predicate IsTrimmed(s: string) {
    s == [] || (!IsWhitespace(s[0]) && !IsWhitespace(s[|s| - 1]))
  }

  /** The number of whitespace characters at the start of `s`. */
  function LeadingWhitespace(s: string): (n: nat)
    ensures n <= |s|
    ensures forall k :: 0 <= k < n ==> IsWhitespace(s[k])
    ensures n < |s| ==> !IsWhitespace(s[n])
  {
    if s != [] && IsWhitespace(s[0]) then 1 + LeadingWhitespace(s[1..]) else 0
  }

  /** `String.prototype.trimStart`. */
  function TrimStart(s: string): (r: string)
    ensures |r| <= |s| && r == s[|s| - |r|..]
    ensures r == [] || !IsWhitespace(r[0])
    ensures forall k :: 0 <= k < |s| - |r| ==> IsWhitespace(s[k])
  {
    s[LeadingWhitespace(s)..]
  }

  function TrimEnd(s: string): (r: string)
    ensures |r| <= |s| && r == s[..|r|]
    ensures r == [] || !IsWhitespace(r[|r| - 1])
    ensures forall k :: |r| <= k < |s| ==> IsWhitespace(s[k])
  {
    if s != [] && IsWhitespace(s[|s| - 1]) then TrimEnd(s[..|s| - 1]) else s
  }

  /** `String.prototype.trim`. */
  function Trim(s: string): (r: string)
    ensures IsTrimmed(r)
    ensures r == [] <==> IsBlank(s)
    ensures exists i :: OccursAt(s, r, i)
  {
    var t := TrimStart(s);
    var r := TrimEnd(t);
    assert OccursAt(s, r, |s| - |t|);
    r
  }

  lemma TrimOfTrimmed(s: string)
    requires IsTrimmed(s)
    ensures Trim(s) == s
  {
  }

  lemma {:induction false} TrimIdempotent(s: string)
    ensures Trim(Trim(s)) == Trim(s)
  {
    TrimOfTrimmed(Trim(s));
  }

  /** `trim` removes exactly the blank padding around a trimmed, non-empty string. */
  lemma TrimOfPadded(w1: string, s: string, w2: string)
    requires IsBlank(w1) && IsBlank(w2) && IsTrimmed(s) && s != []
    ensures Trim(w1 + s + w2) == s
  {
    var x := w1 + s + w2;
    var t := TrimStart(x);
    assert x[|w1|] == s[0];
    assert forall k :: 0 <= k < |w1| ==> x[k] == w1[k];
    assert LeadingWhitespace(x) == |w1|;
    assert t == x[|w1|..] == s + w2;
    assert t[..|s|] == s;
  }

  /** `TrimEnd` of a string extends `TrimEnd` of each of its prefixes. */
  lemma {:induction false} TrimEndOfConcat(a: string, b: string)
    ensures TrimEnd(a) <= TrimEnd(a + b)
    decreases |b|
  {
    if b == [] {
      assert a + b == a;
    } else if IsWhitespace(b[|b| - 1]) {
      assert (a + b)[..|a + b| - 1] == a + b[..|b| - 1];
      TrimEndOfConcat(a, b[..|b| - 1]);
    } else {
      assert (a + b)[|a + b| - 1] == b[|b| - 1];
      assert TrimEnd(a + b) == a + b;
      var n := |TrimEnd(a)|;
      assert TrimEnd(a) == a[..n] == (a + b)[..n];
    }
  }

  predicate IsAsciiUpper(c: char) {
    'A' <= c <= 'Z'
  }

  function LowerChar(c: char): (d: char)
    ensures !IsAsciiUpper(d)
    ensures IsWhitespace(d) <==> IsWhitespace(c)
    ensures !IsAsciiUpper(c) ==> d == c
  {
    if IsAsciiUpper(c) then (c as int + 32) as char else c
  }

  /** `toLowerCase`, restricted to the ASCII letters. */
  function Lower(s: string): (r: string)
    ensures |r| == |s|
    ensures forall k :: 0 <= k < |s| ==> r[k] == LowerChar(s[k])
  {
    if s == [] then [] else [LowerChar(s[0])] + Lower(s[1..])
  }

  lemma LowerOfLowerCase(s: string)
    requires forall k :: 0 <= k < |s| ==> !IsAsciiUpper(s[k])
    ensures Lower(s) == s
  {
  }

  lemma LowerIdempotent(s: string)
    ensures Lower(Lower(s)) == Lower(s)
  {
  }

  /** Lower-casing keeps a trimmed string trimmed and a blank one blank. */
  lemma LowerKeepsTrim(s: string)
    ensures IsTrimmed(s) ==> IsTrimmed(Lower(s))
    ensures IsBlank(Lower(s)) <==> IsBlank(s)
    ensures Lower(s) == [] <==> s == []
  {
  }

  /** `s.split(sep)` for a one-character separator. */
  function Split(s: string, sep: char): (r: seq<string>)
    ensures |r| >= 1
  {
    if s == [] then [""]
    else if s[0] == sep then [""] + Split(s[1..], sep)
    else
      var rest := Split(s[1..], sep);
      [[s[0]] + rest[0]] + rest[1..]
  }

  /** No piece of a split contains the separator. */
  lemma {:induction false} SplitPiecesLackSeparator(s: string, sep: char)
    ensures forall i :: 0 <= i < |Split(s, sep)| ==> sep !in Split(s, sep)[i]
  {
    if s != [] {
      SplitPiecesLackSeparator(s[1..], sep);
    }
  }

  /** `xs.join(sep)`. */
  function Join(xs: seq<string>, sep: string): string {
    if |xs| == 0 then ""
    else if |xs| == 1 then xs[0]
    else xs[0] + sep + Join(xs[1..], sep)
  }

  /** A leading empty piece contributes just one separator. */
  lemma JoinEmptyFirst(xs: seq<string>, sep: string)
    requires |xs| >= 1
    ensures Join([""] + xs, sep) == sep + Join(xs, sep)
  {
    assert ([""] + xs)[1..] == xs;
  }

  /** A character prefixed to the first piece comes first in the joined string. */
  lemma JoinPrepend(c: char, xs: seq<string>, sep: string)
    requires |xs| >= 1
    ensures Join([[c] + xs[0]] + xs[1..], sep) == [c] + Join(xs, sep)
  {
    var ys := [[c] + xs[0]] + xs[1..];
    if |xs| > 1 {
      assert ys[1..] == xs[1..];
    }
  }

  /** Joining the pieces of a split with the separator gives back the string. */
  lemma {:induction false} JoinSplit(s: string, sep: char)
    ensures Join(Split(s, sep), [sep]) == s
  {
    if s != [] {
      var rest := Split(s[1..], sep);
      JoinSplit(s[1..], sep);
      if s[0] == sep {
        assert Split(s, sep) == [""] + rest;
        assert (["" ] + rest)[1..] == rest;
      } else {
        var r := Split(s, sep);
        assert r == [[s[0]] + rest[0]] + rest[1..];
        if |rest| > 1 {
          assert r[1..] == rest[1..];
          assert Join(rest, [sep]) == rest[0] + [sep] + Join(rest[1..], [sep]);
        }
      }
    }
  }

  /** One unfolding of `Split` on a string given as its first character and the rest. */
  lemma SplitCons(c: char, t: string, sep: char)
    ensures Split([c] + t, sep) ==
      if c == sep then [""] + Split(t, sep)
      else [[c] + Split(t, sep)[0]] + Split(t, sep)[1..]
  {
    assert ([c] + t)[0] == c;
    assert ([c] + t)[1..] == t;
  }

  /** Extending the first piece of a concatenation extends the first piece of its left part. */
  lemma PrependToFirst(c: char, left: seq<string>, right: seq<string>)
    requires |left| >= 1
    ensures [[c] + (left + right)[0]] + (left + right)[1..] == ([[c] + left[0]] + left[1..]) + right
  {
    assert (left + right)[0] == left[0];
    assert (left + right)[1..] == left[1..] + right;
  }

  /** Splitting distributes over a separator: the pieces of `a` come first, then those of `b`. */
  lemma {:induction false} SplitAtSeparator(a: string, b: string, sep: char)
    ensures Split(a + [sep] + b, sep) == Split(a, sep) + Split(b, sep)
  {
    if a == [] {
      assert a + [sep] + b == [sep] + b;
      SplitCons(sep, b, sep);
    } else {
      SplitAtSeparator(a[1..], b, sep);
      SplitAtSeparatorStep(a, b, sep);
    }
  }

  /** The inductive step of `SplitAtSeparator`: one more character in front of `a`. */
  lemma SplitAtSeparatorStep(a: string, b: string, sep: char)
    requires a != []
    requires Split(a[1..] + [sep] + b, sep) == Split(a[1..], sep) + Split(b, sep)
    ensures Split(a + [sep] + b, sep) == Split(a, sep) + Split(b, sep)
  {
    var c, t := a[0], a[1..];
    var mid := t + [sep] + b;
    assert a + [sep] + b == [c] + mid;
    assert a == [c] + t;
    SplitConsConcat(c, Split(t, sep), Split(b, sep), mid, t, sep);
  }

  /** One character in front of both sides of `Split(mid) == Split(t) + right`. */
  lemma SplitConsConcat(c: char, left: seq<string>, right: seq<string>, mid: string, t: string, sep: char)
    requires left == Split(t, sep)
    requires Split(mid, sep) == left + right
    ensures Split([c] + mid, sep) == Split([c] + t, sep) + right
  {
    SplitCons(c, mid, sep);
    SplitCons(c, t, sep);
    ConsOntoPieces(c, sep, left, right);
  }

  /** The step of `SplitCons`, applied to `left + right`, leaves `right` untouched. */
  lemma ConsOntoPieces(c: char, sep: char, left: seq<string>, right: seq<string>)
    requires |left| >= 1
    ensures (if c == sep then [""] + (left + right) else [[c] + (left + right)[0]] + (left + right)[1..])
      == (if c == sep then [""] + left else [[c] + left[0]] + left[1..]) + right
  {
    if c == sep {
      assert [""] + (left + right) == ([""] + left) + right;
    } else {
      PrependToFirst(c, left, right);
    }
  }

  /** A string without the separator is a single piece. */
  lemma {:induction false} SplitWithoutSeparator(s: string, sep: char)
    requires sep !in s
    ensures Split(s, sep) == [s]
  {
    if s != [] {
      assert s[0] != sep;
      assert sep !in s[1..];
      SplitWithoutSeparator(s[1..], sep);
      assert [s[0]] + s[1..] == s;
    }
  }

  predicate OccursAt(s: string, sub: string, i: int) {
    0 <= i <= |s| - |sub| && s[i..i + |sub|] == sub
  }

  /** `s.includes(sub)`. */
  function Contains(s: string, sub: string): (b: bool)
    ensures b <==> exists i :: OccursAt(s, sub, i)
    decreases |s|
  {
    if |s| < |sub| then false
    else if s[..|sub|] == sub then (assert OccursAt(s, sub, 0); true)
    else
      var b := Contains(s[1..], sub);
      if b then
        var i :| OccursAt(s[1..], sub, i);
        assert OccursAt(s, sub, i + 1);
        true
      else
        assert forall i :: OccursAt(s, sub, i) ==> i > 0 && OccursAt(s[1..], sub, i - 1);
        false
  }

  /** Every element of a list occurs in the list joined with any separator. */
  lemma {:induction false} JoinContainsElement(xs: seq<string>, sep: string, x: string)
    requires x in xs
    ensures Contains(Join(xs, sep), x)
  {
    if |xs| == 1 {
      assert OccursAt(Join(xs, sep), x, 0);
    } else if xs[0] == x {
      var j := Join(xs, sep);
      assert j == x + (sep + Join(xs[1..], sep));
      assert OccursAt(j, x, 0);
    } else {
      assert x in xs[1..];
      JoinContainsElement(xs[1..], sep, x);
      var tail := Join(xs[1..], sep);
      var i :| OccursAt(tail, x, i);
      var off := |xs[0] + sep|;
      var j := Join(xs, sep);
      assert j == (xs[0] + sep) + tail;
      assert j[off + i..off + i + |x|] == tail[i..i + |x|];
      assert OccursAt(j, x, off + i);
    }
  }

  /** Apply `f` to every element and concatenate the results, in order. */
  function FlatMap<T, U>(f: T -> seq<U>, xs: seq<T>): seq<U> {
    if xs == [] then [] else f(xs[0]) + FlatMap(f, xs[1..])
  }

  lemma {:induction false} FlatMapAppend<T, U>(f: T -> seq<U>, a: seq<T>, b: seq<T>)
    ensures FlatMap(f, a + b) == FlatMap(f, a) + FlatMap(f, b)
  {
    if a == [] {
      assert a + b == b;
    } else {
      assert (a + b)[0] == a[0];
      assert (a + b)[1..] == a[1..] + b;
      FlatMapAppend(f, a[1..], b);
    }
  }

  /** The JavaScript `length`: UTF-16 code units, two for a code point beyond the BMP. */
  function Utf16Length(s: string): (n: nat)
    ensures |s| <= n <= 2 * |s|
  {
    if s == [] then 0
    else (if s[0] as int > 0xFFFF then 2 else 1) + Utf16Length(s[1..])
  }
}

=== FILE: worker.dfy ===
/**
 * `handleRequest`: the routing, validation and conditional-GET logic of the
 * worker. A request is its URL pathname, its query and its headers; the
 * response is a status, a body and the headers that matter to a client.
 */
module Worker {
  import opened Wrappers
  import opened Strings
  import opened Catalog
  import opened Params
  import opened Resolver
  import opened Grid

  /** `MAX_ICON_PARAM_LENGTH`. */
  const MaxIconParamLength: int := 2048
  /** `MAX_ICONS`. */
  const MaxIcons: int := 200

  const LongCache: string := "public, max-age=86400"
  const ShortCache: string := "public, max-age=60"
  const SvgContentType: string := "image/svg+xml; charset=UTF-8"
  const JsonContentType: string := "application/json;charset=UTF-8"

  /** The refusals the worker answers with a plain-text message. */
  datatype Failure =
    | NoIcons                       // no `i` or `icons` parameter
    | ParamTooLong                  // the icon list is over `MAX_ICON_PARAM_LENGTH`
    | BadTheme                      // `parseTheme` gave null
    | BadPerLine                    // `parsePerLine` gave null
    | TooManyIcons                  // more than `MAX_ICONS` tokens
    | UnknownIcons(ids: seq<string>) // tokens that did not resolve, as written
    | NoValidIcons                  // nothing left to draw
    | NotFound
    | Unauthorized
  {
    /** The status code of the refusal. */
    function Status(): (s: int)
      ensures s in {400, 401, 404, 413}
    {
      match this
      case ParamTooLong | TooManyIcons => 413
      case NotFound => 404
      case Unauthorized => 401
      case _ => 400
    }

    /** The response text. */
    function Message(): string {
      match this
      case NoIcons => "You didn't specify any icons!"
      case ParamTooLong => "icons param is too long"
      case BadTheme => "Theme must be either \"light\" or \"dark\""
      case BadPerLine => "Icons per line must be a number between 1 and 50"
      case TooManyIcons => "Too many icons requested (max 200)."
      case UnknownIcons(ids) => UnknownMessage(ids)
      case NoValidIcons => "No valid icons requested."
      case NotFound => "Not Found"
      case Unauthorized => "Unauthorized"
    }
  }

  /** The message listing the tokens that did not resolve. */
  function UnknownMessage(invalid: seq<string>): string {
    "Unknown icon id(s): " + Join(invalid, ", ") + ". See /api/icons for supported ids."
  }

  /** What a response carries; the digest input of every cacheable body. */
  datatype Body =
    | NoBody                          // `new Response(null, …)`
    | Refusal(failure: Failure)       // the text `failure.Message()`
    | RobotsTxt                       // the two lines that disallow every crawler
    | HomePage                        // the HTML index page
    | SvgImage(doc: SvgDoc)           // `generateSvg(resolved, perLine)`
    | NameList(names: seq<string>)    // `JSON.stringify(iconNameList)`
    | CatalogDump(catalog: Catalog)   // `JSON.stringify(icons)`

  /**
   * A response: a `contentType` of `None` stands for the runtime's default for
   * a string body; `etag` and `cacheControl` are the `ETag` and `Cache-Control`
   * headers.
   */
  datatype Response = Response(
    status: int,
    body: Body,
    contentType: Option<string>,
    etag: Option<string>,
    cacheControl: Option<string>)

  /**
   * The parts of a request the worker reads. Header names are lower case, and
   * each maps to what `Headers.get` returns for it: the values of a repeated
   * header already combined, separated by `, `.
   */
  datatype Request = Request(pathname: string, query: Query, headers: map<string, string>)

  /** The deployment's `SVGS_API_KEY`, when one is bound. */
  datatype Config = Config(svgsApiKey: Option<string>)

  /** `new Response(failure.Message(), { status })`. */
  function Refuse(f: Failure): Response {
    Response(f.Status(), Refusal(f), None, None, None)
  }

  /** `pathname.replace(/^\/|\/$/g, '')`: one leading and one trailing slash removed. */
  function StripSlashes(pathname: string): string {
    var s := if pathname != [] && pathname[0] == '/' then pathname[1..] else pathname;
    if s != [] && s[|s| - 1] == '/' then s[..|s| - 1] else s
  }

  /** A path written with or without its slashes names the same route. */
  lemma StripSlashesOfSegment(p: string)
    requires p != [] && p[0] != '/' && p[|p| - 1] != '/'
    ensures StripSlashes("/" + p) == p
    ensures StripSlashes("/" + p + "/") == p
    ensures StripSlashes(p) == p
  {
    assert ("/" + p)[1..] == p;
    assert ("/" + p + "/")[1..] == p + "/";
    assert (p + "/")[..|p|] == p;
  }

  /**
   * The `ETag` branch of a cacheable route: 304 with no body exactly when the
   * client's `if-none-match` equals the body's tag, else 200 with the body.
   */
  function Conditional(req: Request, etag: Body -> string, body: Body, contentType: string): (resp: Response)
    ensures resp.etag == Some(etag(body)) && resp.cacheControl == Some(LongCache)
    ensures resp.status == 304 <==> Get(req.headers, "if-none-match") == Some(etag(body))
    ensures resp.status == 304 ==> resp.body == NoBody && resp.contentType == None
    ensures resp.status != 304 ==> resp.status == 200 && resp.body == body && resp.contentType == Some(contentType)
  {
    var tag := etag(body);
    if Get(req.headers, "if-none-match") == Some(tag) then
      Response(304, NoBody, None, Some(tag), Some(LongCache))
    else
      Response(200, body, Some(contentType), Some(tag), Some(LongCache))
  }

  /** `searchParams.get('i') || searchParams.get('icons')`. */
  function IconParam(q: Query): Option<string> {
    Or(Get(q, "i"), Get(q, "icons"))
  }

  /** The tokens to resolve: every base name for `all`, else the comma-separated list. */
  function RequestedTokens(c: Catalog, iconParam: string): seq<string> {
    if Lower(Trim(iconParam)) == "all" then BaseNames(c) else NormalizeIconParam(Some(iconParam))
  }

  /** What the `/icons` checks decide: a refusal, or the keys to draw and the row width. */
  datatype Plan = Refused(failure: Failure) | Draw(keys: seq<string>, perLine: int)

  /** The checks of the `/icons` route, in the order the worker runs them. */
  function PlanIcons(c: Catalog, q: Query): (plan: Plan)
    ensures plan.Refused? ==> plan.failure !in {NotFound, Unauthorized}
    ensures plan.Draw? ==> 1 <= |plan.keys| <= MaxIcons && MinPerLine <= plan.perLine <= MaxPerLine
  {
    var iconParam := IconParam(q);
    if iconParam.None? || iconParam.value == "" then Refused(NoIcons)
    else if Utf16Length(iconParam.value) > MaxIconParamLength then Refused(ParamTooLong)
    else
      match ParseTheme(q)
      case None => Refused(BadTheme)
      case Some(theme) =>
        match ParsePerLine(q)
        case None => Refused(BadPerLine)
        case Some(perLine) =>
          var requested := RequestedTokens(c, iconParam.value);
          if |requested| > MaxIcons then Refused(TooManyIcons)
          else PlanResolution(c, requested, theme, perLine)
  }

  /** The last two checks, on the outcome of `resolveIcons`: unknown tokens first, then an empty result. */
  function PlanResolution(c: Catalog, requested: seq<string>, theme: Theme, perLine: int): (plan: Plan)
    requires |requested| <= MaxIcons
    ensures plan.Refused? ==> plan.failure.UnknownIcons? || plan.failure == NoValidIcons
    ensures plan.Draw? ==> 1 <= |plan.keys| <= |requested| && plan.perLine == perLine
  {
    var r := Resolve(TablesOf(c), requested, theme);
    if |r.invalid| > 0 then Refused(UnknownIcons(r.invalid))
    else if |r.resolved| == 0 then Refused(NoValidIcons)
    else
      ResolutionPartitionsTokens(TablesOf(c), requested, theme);
      NonBlankCountBound(requested);
      Draw(r.resolved, perLine)
  }

  lemma {:induction false} NonBlankCountBound(tokens: seq<string>)
    ensures NonBlankCount(tokens) <= |tokens|
  {
    if tokens != [] {
      NonBlankCountBound(tokens[..|tokens| - 1]);
    }
  }

  /** The `/icons` route, from the point where the path has matched. */
  function IconsRoute(c: Catalog, etag: Body -> string, req: Request): (resp: Response)
    ensures resp.status in {200, 304, 400, 413}
    ensures resp.status == 304 ==> resp.body == NoBody && resp.etag.Some?
  {
    Answer(c, etag, req, PlanIcons(c, req.query))
  }

  /** The response to a decided plan: the refusal, or the image under its `ETag`. */
  function Answer(c: Catalog, etag: Body -> string, req: Request, plan: Plan): (resp: Response)
    requires plan.Refused? ==> plan.failure !in {NotFound, Unauthorized}
    requires plan.Draw? ==> plan.perLine >= 1
    ensures resp.status in {200, 304, 400, 413}
    ensures resp.status == 304 ==> resp.body == NoBody && resp.etag.Some?
    ensures plan.Refused? ==>
      resp.status == plan.failure.Status() && resp.body == Refusal(plan.failure) && resp.etag == None
    ensures plan.Draw? ==>
      var body := SvgImage(GenerateSvg(c.svg, plan.keys, plan.perLine));
      && resp.etag == Some(etag(body))
      && (resp.status == 304 <==> Get(req.headers, "if-none-match") == Some(etag(body)))
      && (resp.status != 304 ==> resp.status == 200 && resp.body == body && resp.contentType == Some(SvgContentType))
  {
    match plan
    case Refused(f) => Refuse(f)
    case Draw(keys, perLine) =>
      Conditional(req, etag, SvgImage(GenerateSvg(c.svg, keys, perLine)), SvgContentType)
  }

  /**
   * What `/icons` sends back: the refusal of the first failing check, or else
   * the image of the resolved keys at the parsed row width behind the `ETag`
   * branch.
   */
  lemma IconsRouteResponse(c: Catalog, etag: Body -> string, req: Request)
    ensures var plan := PlanIcons(c, req.query); var resp := IconsRoute(c, etag, req);
      && (plan.Refused? ==> resp == Refuse(plan.failure))
      && (plan.Draw? ==>
            resp == Conditional(req, etag, SvgImage(GenerateSvg(c.svg, plan.keys, plan.perLine)), SvgContentType))
  {
  }

  /** The `/api/svgs` route: hidden without a configured key, and guarded by it. */
  function SvgsRoute(c: Catalog, config: Config, etag: Body -> string, req: Request): (resp: Response)
    ensures resp.status in {200, 304, 401, 404}
    ensures resp.status == 304 ==> resp.body == NoBody && resp.etag.Some?
  {
    var key := config.svgsApiKey;
    if key.None? || key.value == "" then Refuse(NotFound)
    else
      var provided := Or(Get(req.headers, "x-api-key"), Get(req.query, "key")).GetOr("");
      if provided == "" || provided != key.value then Refuse(Unauthorized)
      else Conditional(req, etag, CatalogDump(c), JsonContentType)
  }

  /** `handleRequest`. */
  function HandleRequest(c: Catalog, config: Config, etag: Body -> string, req: Request): (resp: Response)
    ensures resp.status in {200, 204, 304, 400, 401, 404, 413}
    ensures resp.status == 304 ==> resp.body == NoBody && resp.etag.Some?
  {
    var path := StripSlashes(req.pathname);
    if path == "" then
      Response(200, HomePage, Some("text/html; charset=UTF-8"), None, Some(ShortCache))
    else if req.pathname == "/favicon.ico" then
      Response(204, NoBody, None, None, Some(LongCache))
    else if req.pathname == "/robots.txt" then
      Response(200, RobotsTxt, Some("text/plain; charset=UTF-8"), None, Some(LongCache))
    else if path == "icons" then
      IconsRoute(c, etag, req)
    else if path == "api/icons" then
      Conditional(req, etag, NameList(BaseNames(c)), JsonContentType)
    else if path == "api/svgs" then
      SvgsRoute(c, config, etag, req)
    else
      Refuse(NotFound)
  }

  /** Every check of the `/icons` route passes. */
  predicate IconsRequestValid(c: Catalog, q: Query) {
    var p := IconParam(q);
    && p.Some? && p.value != ""
    && Utf16Length(p.value) <= MaxIconParamLength
    && ParseTheme(q).Some?
    && ParsePerLine(q).Some?
    && |RequestedTokens(c, p.value)| <= MaxIcons
    && Resolve(TablesOf(c), RequestedTokens(c, p.value), ParseTheme(q).value).invalid == []
    && Resolve(TablesOf(c), RequestedTokens(c, p.value), ParseTheme(q).value).resolved != []
  }

  /**
   * The `/icons` checks run in a fixed order and the first that fails decides
   * the refusal: a missing parameter, an over-long one, a bad theme, a bad
   * `perline`, too many tokens, unknown tokens and nothing left to draw.
   */
  lemma IconsChecksInOrder(c: Catalog, q: Query)
    ensures var plan := PlanIcons(c, q); var p := IconParam(q);
      && (p.None? || p == Some("") ==> plan == Refused(NoIcons))
      && (p.Some? && p.value != "" && Utf16Length(p.value) > MaxIconParamLength ==> plan == Refused(ParamTooLong))
      && (p.Some? && p.value != "" && Utf16Length(p.value) <= MaxIconParamLength ==>
            && (ParseTheme(q).None? ==> plan == Refused(BadTheme))
            && (ParseTheme(q).Some? && ParsePerLine(q).None? ==> plan == Refused(BadPerLine))
            && (ParseTheme(q).Some? && ParsePerLine(q).Some? && |RequestedTokens(c, p.value)| > MaxIcons ==>
                  plan == Refused(TooManyIcons)))
  {
  }

  /** An image is drawn exactly when every check passes. */
  lemma DrawIffValid(c: Catalog, q: Query)
    ensures PlanIcons(c, q).Draw? <==> IconsRequestValid(c, q)
  {
    var p := IconParam(q);
    if && p.Some? && p.value != "" && Utf16Length(p.value) <= MaxIconParamLength
       && ParseTheme(q).Some? && ParsePerLine(q).Some? && |RequestedTokens(c, p.value)| <= MaxIcons
    {
      ResolutionChecks(c, q);
    } else {
      IconsChecksInOrder(c, q);
    }
  }

  /** The `/icons` route answers 200 or 304 exactly when every check passes. */
  lemma IconsRouteSucceedsIffValid(c: Catalog, etag: Body -> string, req: Request)
    ensures IconsRoute(c, etag, req).status in {200, 304} <==> IconsRequestValid(c, req.query)
  {
    DrawIffValid(c, req.query);
  }

  /** The status of each refusal: 413 for the two size limits, 400 for the other checks. */
  lemma RefusalStatuses(ids: seq<string>)
    ensures NoIcons.Status() == 400 && ParamTooLong.Status() == 413
    ensures BadTheme.Status() == 400 && BadPerLine.Status() == 400
    ensures TooManyIcons.Status() == 413 && UnknownIcons(ids).Status() == 400
    ensures NoValidIcons.Status() == 400
    ensures NotFound.Status() == 404 && Unauthorized.Status() == 401
  {
  }

  /** After the checks, unknown tokens are refused before an empty list is. */
  lemma ResolutionChecks(c: Catalog, q: Query)
    requires var p := IconParam(q);
      && p.Some? && p.value != "" && Utf16Length(p.value) <= MaxIconParamLength
      && ParseTheme(q).Some? && ParsePerLine(q).Some? && |RequestedTokens(c, p.value)| <= MaxIcons
    ensures var r := Resolve(TablesOf(c), RequestedTokens(c, IconParam(q).value), ParseTheme(q).value);
      && (r.invalid != [] ==> PlanIcons(c, q) == Refused(UnknownIcons(r.invalid)))
      && (r.invalid == [] && r.resolved == [] ==> PlanIcons(c, q) == Refused(NoValidIcons))
      && (r.invalid == [] && r.resolved != [] ==> PlanIcons(c, q) == Draw(r.resolved, ParsePerLine(q).value))
  {
    var p := IconParam(q);
    assert !(p.None? || p.value == "");
    assert !(Utf16Length(p.value) > MaxIconParamLength);
    assert PlanIcons(c, q) == PlanResolution(c, RequestedTokens(c, p.value), ParseTheme(q).value, ParsePerLine(q).value);
  }

  /** The refusal for unknown tokens names every one of them. */
  lemma {:induction false} UnknownMessageNamesEveryToken(ids: seq<string>, tok: string)
    requires tok in ids
    ensures Contains(UnknownIcons(ids).Message(), tok)
  {
    JoinContainsElement(ids, ", ", tok);
    var j := Join(ids, ", ");
    var i :| OccursAt(j, tok, i);
    var m := UnknownMessage(ids);
    var pre := "Unknown icon id(s): ";
    assert m == pre + j + ". See /api/icons for supported ids.";
    assert m[|pre| + i..|pre| + i + |tok|] == j[i..i + |tok|];
    assert OccursAt(m, tok, |pre| + i);
  }

  /**
   * A requested token that does not resolve is reported, as written, in a 400
   * refusal once the checks before resolution pass.
   */
  lemma UnknownTokenReported(c: Catalog, q: Query, tok: string)
    requires var p := IconParam(q);
      && p.Some? && p.value != "" && Utf16Length(p.value) <= MaxIconParamLength
      && ParseTheme(q).Some? && ParsePerLine(q).Some?
      && |RequestedTokens(c, p.value)| <= MaxIcons
      && tok in RequestedTokens(c, p.value)
      && ResolveToken(TablesOf(c), tok, ParseTheme(q).value).Invalid?
    ensures PlanIcons(c, q).Refused? && PlanIcons(c, q).failure.UnknownIcons?
    ensures PlanIcons(c, q).failure.Status() == 400
    ensures Contains(PlanIcons(c, q).failure.Message(), tok)
  {
    var toks := RequestedTokens(c, IconParam(q).value);
    var theme := ParseTheme(q).value;
    InvalidAreUnresolvedTokens(TablesOf(c), toks, theme, tok);
    ResolutionChecks(c, q);
    UnknownMessageNamesEveryToken(Resolve(TablesOf(c), toks, theme).invalid, tok);
  }

  /** A drawn image holds exactly the resolved keys' catalog entries, in order. */
  lemma DrawnIconsAreCatalogEntries(c: Catalog, q: Query)
    requires PlanIcons(c, q).Draw?
    ensures var plan := PlanIcons(c, q); var doc := GenerateSvg(c.svg, plan.keys, plan.perLine);
      forall i :: 0 <= i < |plan.keys| ==> plan.keys[i] in c.svg && doc.tiles[i].fragment == c.svg[plan.keys[i]]
  {
    var toks := RequestedTokens(c, IconParam(q).value);
    var theme := ParseTheme(q).value;
    ResolutionChecks(c, q);
    var keys := PlanIcons(c, q).keys;
    forall i | 0 <= i < |keys| ensures keys[i] in c.svg {
      ResolvedKeysInCatalog(TablesOf(c), toks, theme, keys[i]);
    }
  }

  /** `/api/svgs` is hidden without a key and answers 401 unless the caller presents it. */
  lemma SvgsKeyGate(c: Catalog, config: Config, etag: Body -> string, req: Request)
    ensures var resp := SvgsRoute(c, config, etag, req);
      var provided := Or(Get(req.headers, "x-api-key"), Get(req.query, "key")).GetOr("");
      && (config.svgsApiKey.None? || config.svgsApiKey == Some("") ==> resp.status == 404)
      && (config.svgsApiKey.Some? && config.svgsApiKey.value != "" && provided != config.svgsApiKey.value ==>
            resp.status == 401)
      && (config.svgsApiKey.Some? && config.svgsApiKey.value != "" && provided == config.svgsApiKey.value ==>
            resp == Conditional(req, etag, CatalogDump(c), JsonContentType))
  {
  }

  /**
   * The routes: the index page at the root, the fixed replies for
   * `/favicon.ico` and `/robots.txt`, the three endpoints, and 404 for
   * everything else.
   */
  lemma Routing(c: Catalog, config: Config, etag: Body -> string, req: Request)
    ensures var resp := HandleRequest(c, config, etag, req); var path := StripSlashes(req.pathname);
      && (path == "" ==> resp.status == 200 && resp.body == HomePage && resp.etag == None)
      && (req.pathname == "/favicon.ico" ==> resp.status == 204 && resp.body == NoBody)
      && (req.pathname == "/robots.txt" ==> resp.status == 200 && resp.body == RobotsTxt)
      && (path == "icons" ==> resp == IconsRoute(c, etag, req))
      && (path == "api/icons" ==> resp == Conditional(req, etag, NameList(BaseNames(c)), JsonContentType))
      && (path == "api/svgs" ==> resp == SvgsRoute(c, config, etag, req))
      && (path !in {"", "icons", "api/icons", "api/svgs"} && req.pathname !in {"/favicon.ico", "/robots.txt"} ==>
            resp == Refuse(NotFound))
  {
    if req.pathname == "/favicon.ico" {
      assert StripSlashes(req.pathname) == "favicon.ico";
    }
    if req.pathname == "/robots.txt" {
      assert StripSlashes(req.pathname) == "robots.txt";
    }
  }

  /** The favicon reply matches the raw pathname only: with a trailing slash it is a 404. */
  lemma FaviconWithTrailingSlashIsNotFound(c: Catalog, config: Config, etag: Body -> string, req: Request)
    requires req.pathname == "/favicon.ico/"
    ensures HandleRequest(c, config, etag, req).status == 404
  {
    assert StripSlashes(req.pathname) == "favicon.ico";
  }

  /**
   * Revalidation: repeating a request that got a 200 with an `ETag`, now
   * sending that tag in `if-none-match`, gets a 304 carrying the same tag.
   */
  lemma RevalidationYields304(c: Catalog, config: Config, etag: Body -> string, req: Request)
    requires HandleRequest(c, config, etag, req).status == 200
    requires HandleRequest(c, config, etag, req).etag.Some?
    ensures var tag := HandleRequest(c, config, etag, req).etag.value;
      var again := HandleRequest(c, config, etag, req.(headers := req.headers["if-none-match" := tag]));
      again.status == 304 && again.etag == Some(tag)
  {
    var tag := HandleRequest(c, config, etag, req).etag.value;
    var req' := req.(headers := req.headers["if-none-match" := tag]);
    Routing(c, config, etag, req);
    Routing(c, config, etag, req');
    assert Get(req'.headers, "x-api-key") == Get(req.headers, "x-api-key");
    assert Get(req'.headers, "if-none-match") == Some(tag);
  }
}

=== FILE: wrappers.dfy ===
/** The optional value used wherever JavaScript returns `null` or `undefined`. */
module Wrappers {

  datatype Option<+T> = None | Some(value: T) {

    /** The value, or a default when there is none. */
    function GetOr(default: T): T {
      match this
      case Some(v) => v
      case None => default
    }
  }
}
